=== FILE: README.md ===
# pyhue in Dafny

A model of `pyhue`, a small Python client for the Philips Hue bridge. The
client has six parts, and the model has a module for each:

- **HueApi (transport):** `HueApiRequest.send` builds the URL for API version 2 (`/clip/v2/…`) or
  version 1 (`/api/…`). It attaches the `hue-application-key` header and
  maps the reply: status 200 gives the decoded JSON, and anything else is an error.
- **HueDevice, HueLight, HueSwitch, HueBridge (device model):**
  - a device keeps its metadata, product data and services as insertion-ordered dictionaries;
  - it derives its endpoints (`/resource/<rtype>/<rid>`) from its services;
  - `refresh_state` fetches every endpoint into a fresh `endpoints` map.
  - A light reads its on/off state from its first endpoint and has `turn_on`.
- **Catalog:** this is `Bridge.refresh_devices`, `Bridge.list` and `Bridge.find_devices_by_name`.
  Each device record is classified (`light` beats `button` beats `bridge`)
  and populated, then the catalog is queried by type or by name.
- **Credentials (credential file):** `__create_config` and `__load_config` over the per-bridge
  records of `~/.pyhue/client`.
- **Discovery:** `Bridge.discover` probes hosts in order and takes the first whose
  200/403 page contains `hue personal wireless lighting`, lower-cased. The
  three urllib3 connection exceptions are swallowed; any other exception escapes.
- **Pairing:** `Bridge.get_credentials` polls the registration request while the
  bridge answers "link button not pressed" (error type 101).

Representation choices:
- Python dictionaries become association lists (`Dicts.Dict`). Assignment overwrites in place and
  appends new keys, matching Python's insertion order.
- Decoded JSON is `JsonData.Json`, with Python truthiness.
- Exceptions are `Errors.Error` values in a `Result`.
- The network is a function from request to reply (`HueApi.Network`), and a
  device's `send` callback is a function from endpoint to result (`HueDevice.Fetch`).
- The poll loop of pairing runs over a finite sequence of answers (or of networks, one per
  attempt). `StillWaiting` means the answers ran out while the bridge kept asking
  for the button.

Three behaviours of the code that a reader might not expect, all modelled as written:
- Pairing passes the API version as the string `'1'`, which `send` rejects, so
  registration never reaches the bridge (see Findings).
- Discovery returns `None` when no host answers as a bridge; it does not raise.
- A `regex` search raises `NotImplementedError` only when the catalog holds at least one
  device. On an empty catalog it returns an empty list.

## Model

| member | source | states |
|---|---|---|
| Dicts.Put | huedevice.py:23-30 | `d[k] = v`: the key reads back `v`, every other key keeps its value, an existing key keeps its position and a new key is appended last |
| Dicts.PutKeepsUnique | huedevice.py:23-30 | assignment keeps dictionary keys unique |
| Dicts.PutSame | huedevice.py:23-30 | re-assigning a key its current value leaves the dictionary unchanged |
| Dicts.PutNew | huedevice.py:29-30 | assigning a key not present appends the entry at the end |
| Dicts.PutAt | huedevice.py:29-30 | overwriting an existing key replaces that entry's value where it stands |
| Dicts.GetUnique | huedevice.py:34-35 | in a dictionary with unique keys, looking up an entry's key finds that entry's value |
| Dicts.PutAllIntoEmpty | bridge.py:210-211 | copying all entries of a dictionary into an empty one reproduces it exactly, order included |
| Dicts.PutAllAlreadyThere | bridge.py:209-211 | copying entries that are already present changes nothing |
| Dicts.ReapplyCopies | bridge.py:209-214 | the nested `for entry … for key …` copy loop yields exactly the source dictionary (empty when the source is empty), however often it repeats |
| Dicts.ReapplyFixed | bridge.py:209-214 | repeating the copy once it is made is idempotent |
| JsonData.At | huelight.py:18 | indexing `j[i]` succeeds exactly on an array long enough, and yields its `i`-th element; indexing a string, which Python allows, is read as a failure, because every use then subscripts or calls `.get` on the character, which raises |
| JsonData.Member | bridge.py:162 | `j[k]` succeeds exactly on an object holding the key, and returns its value |
| JsonData.Lookup | bridge.py:161 | `j.get(k)` succeeds on any object, reads a missing key as `None`, and agrees with `j[k]` where that succeeds |
| Errors.Found | bridge.py:179-180 | a lookup that raises fails exactly when the value is absent, and otherwise yields that value |
| Text.Lower | bridge.py:236 | lower-casing keeps the length and maps each character on its own |
| Text.LowerIsCaseFold | bridge.py:236 | lower-casing leaves no upper-case letter, keeps every other character, and is idempotent |
| Text.Contains | bridge.py:146 | `needle in haystack` holds exactly when the needle occurs at some position |
| HueApi.NewApiRequest | helpers/hueapi.py:12-21 | the transport keeps the address and key and defaults to API version 2 |
| HueApi.EffectiveVersion | helpers/hueapi.py:33-34 | a truthy per-call version wins, and a falsy one falls back to the transport's |
| HueApi.WithKey | helpers/hueapi.py:49-50 | a set key is stored under `hue-application-key`, no other header changes, and an unset key leaves the headers alone |
| HueApi.Prepare | helpers/hueapi.py:33-50 | without an address it fails with "address not set". Otherwise it succeeds exactly for version 2 or 1, with the v2 or v1 URL and the keyed headers, and any other version fails naming that version |
| HueApi.Complete | helpers/hueapi.py:53-65 | a reply succeeds exactly when its status is 200 and its body is JSON. A non-200 status fails with the status and body, and a transport exception is passed on |
| HueApi.Send | helpers/hueapi.py:25-69 | preparation errors are raised before any request, otherwise the outcome is the completion of the network's reply, and a success always has status 200 |
| HueApi.NoRequestWithoutAddress | helpers/hueapi.py:66-67 | with no address, every call fails identically whatever the network |
| HueApi.DefaultVersionIsTwo | helpers/hueapi.py:17 | a call without a version on a default transport goes to the v2 URL |
| HueApi.StringVersionRejected | helpers/hueapi.py:42-47 | the version given as the string `'1'` is rejected as unknown |
| HueDevice.NewDevice | huedevice.py:5-21 | a new device holds the given ids and type, empty dictionaries and no endpoints attribute |
| HueDevice.AddMetadata | huedevice.py:23-24 | the key reads back the value, other keys and all other attributes are unchanged |
| HueDevice.AddProductData | huedevice.py:26-27 | the key reads back the value, other keys and all other attributes are unchanged |
| HueDevice.AddService | huedevice.py:29-30 | the service id maps to the type, other ids are unchanged, and a new id is appended to the ids |
| HueDevice.GetServices | huedevice.py:32-36 | the service types, one per service, in insertion order |
| HueDevice.GetServicesAfterAddNew | huedevice.py:29-36 | adding a new service appends its type to `get_services()` |
| HueDevice.GetServicesAfterOverwrite | huedevice.py:29-36 | re-adding an existing id replaces its type in place |
| HueDevice.ResourcePathInjective | huedevice.py:46 | different service ids of one type give different endpoint paths |
| HueDevice.EndpointsFor | huedevice.py:42-49 | the endpoint loop raises NotImplementedError exactly when some service matches and the version is not 2. Otherwise its paths are exactly those of the matching services, and with no match it returns `[]` |
| HueDevice.EndpointsAppend | huedevice.py:43-46 | endpoints follow service order: each service contributes its path exactly when its type matches |
| HueDevice.EndpointsDistinct | huedevice.py:43-46 | services with distinct ids give distinct endpoints |
| HueDevice.GetEndpoints | huedevice.py:38-49 | a falsy `rtype` means the device's own type, version 2 never fails, and every matching service's path is listed |
| HueDevice.NoMatchNoEndpoints | huedevice.py:39-49 | with no service of the requested type the result is `[]` in every version |
| HueDevice.FetchInto | huedevice.py:66-67 | the fetch loop can fail only when there is an endpoint to fetch |
| HueDevice.FetchIntoSucceeds | huedevice.py:66-67 | the loop completes exactly when every endpoint's GET succeeds |
| HueDevice.FetchIntoFailure | huedevice.py:66-67 | a failed loop raises the error of some endpoint's GET |
| HueDevice.FetchIntoKeys | huedevice.py:66-67 | afterwards the keys are the earlier keys plus the endpoints |
| HueDevice.FetchIntoValues | huedevice.py:66-67 | afterwards every endpoint holds the data its GET returned |
| HueDevice.FetchIntoUntouched | huedevice.py:66-67 | keys not visited keep their value |
| HueDevice.FetchIntoOrder | huedevice.py:65-67 | distinct new endpoints are stored in visiting order |
| HueDevice.AllSucceedCons | huedevice.py:66-67 | every GET succeeds exactly when the first does and so do the rest |
| HueDevice.FetchAll | huedevice.py:65-67 | from an empty map, the loop succeeds exactly when every GET does. It then maps exactly the endpoints, each to its GET's data, and otherwise raises one GET's error |
| HueDevice.RefreshState | huedevice.py:63-69 | a refresh assigns an endpoints map and changes no other attribute |
| HueDevice.RefreshStateSucceeds | huedevice.py:63-69 | a refresh succeeds exactly when the GET of every v2 endpoint does, and otherwise raises the error of one of them |
| HueDevice.RefreshStateEndpoints | huedevice.py:63-69 | afterwards the map's keys are exactly the device's endpoints (in order, when ids are unique), each holding its GET's data |
| HueDevice.AttributeNamesOf | huedevice.py:12-21 | the instance attributes in assignment order, with `endpoints` last once a refresh has run |
| HueDevice.Properties | huedevice.py:57-61 | the properties copy has exactly those attribute names in order, never `send`, each holding that attribute's current value |
| HueDevice.VariantNamed | huedevice.py:19 | a friendly type names the class whose constructor sets it |
| HueDevice.VariantNamedInverse | huedevice.py:19 | every class is recovered from its friendly type |
| HueDevice.AllNamesDistinct | huedevice.py:12-21 | the attribute names, `endpoints` included, are pairwise distinct |
| HueDevice.PropertyLookup | huedevice.py:57-61 | each attribute of the copy is found under its own name |
| HueDevice.FromPropertiesRebuilds | huedevice.py:57-61 | a copy holding each attribute under its name determines the device |
| HueDevice.PropertiesTextFields | huedevice.py:57-61 | the copy holds the ids, type and friendly type |
| HueDevice.PropertiesEntryFields | huedevice.py:57-61 | the copy holds the metadata, product data and services unchanged |
| HueDevice.PropertiesEndpoints | huedevice.py:57-61 | the copy holds the endpoints map exactly when the device has one |
| HueDevice.PropertiesRoundTrip | huedevice.py:57-61 | the properties copy loses nothing but the callback: the device is rebuilt from it |
| HueLight.NewLight | huelight.py:5-8 | a light has friendly type and resource type `light` and starts as a fresh device |
| HueLight.OnState | huelight.py:18 | reading `['data'][0]['on']['on']` raises only a payload error, and a value read is the one at that path |
| HueLight.OnStateOfPayload | huelight.py:18 | for any payload whose `data` list starts with an object whose `on` object holds `on`, that value is read, whatever else the payload holds. A payload without `data` raises |
| HueLight.IsOn | huelight.py:16-18 | before any refresh it raises. With no endpoints it is `None`, otherwise it reads the first endpoint's payload |
| HueLight.OnOffBody | huelight.py:11 | the body holds the JSON literal `true` or `false` for the requested state, which `str(on).lower()` produces |
| HueLight.OnOffBodies | huelight.py:11 | the formatted bodies are `{"on":{"on":true}}` and `{"on":{"on":false}}` |
| HueLight.SetOnOff | huelight.py:10-14 | as written: a light that is on succeeds without sending. One that is off raises TypeError from the argument-less `send()`, and an `is_on` error propagates |
| HueLight.TurnOn | huelight.py:20-21 | `turn_on` succeeds exactly when the light is already on |
| HueLight.SetOnOffIgnoresRequest | huelight.py:10-14 | as written, the requested state has no effect on the outcome |
| HueLight.TurnOnOutcome | huelight.py:13-14 | on a light that is off, `turn_on` always fails, and on one that is on it always succeeds |
| HueLight.IntendedSetOnOff | huelight.py:10-14 | corrected: an `is_on` error propagates, and a light that is on is left alone. A light that is off gets the body PUT to its first endpoint: it succeeds exactly when that `send` does, and otherwise raises its error. With no endpoint there is nothing to send |
| HueLight.IntendedTurnOnSends | huelight.py:10-21 | corrected `turn_on` on a light that is off sends `{"on":{"on":true}}` by PUT to the v2 path of its first endpoint, and succeeds exactly when the bridge accepts it |
| HueLight.FirstEndpoint | huedevice.py:43-46 | the first endpoint of a type is the path of the first service of that type |
| HueLight.IsOnAfterRefresh | huelight.py:16-18 | after a refresh, `is_on` reads the payload fetched for the light's first `light` service |
| HueLight.IsOnWithoutLightService | huelight.py:16-18 | a light with no `light` service refreshes to no endpoints, and `is_on` is then `None` |
| HueSwitch.NewSwitch | hueswitch.py:5-8 | a switch has friendly type `switch`, resource type `button`, and starts as a fresh device |
| HueSwitch.SwitchEndpointsAreButtons | hueswitch.py:8 | a switch's default endpoints are exactly the paths of its `button` services |
| HueBridge.NewHueBridge | huebridge.py:5-7 | a bridge device has friendly type `bridge` and no resource type |
| HueBridge.BridgeHasNoEndpoints | huebridge.py:5-7 | a bridge device has no default endpoints in any version, so a refresh fetches nothing and stores an empty map |
| Catalog.Rtypes | bridge.py:178-180 | one type per service, in order |
| Catalog.Classify | bridge.py:181-208 | a record is a light iff it has a `light` service. It is a switch iff it has a `button` but no `light`, a bridge iff it has `bridge` and neither of those, and a generic device otherwise |
| Catalog.ClassifiedDeviceHasEndpoints | bridge.py:181-194 | a record classified as light or switch has a service of that class's resource type, and only bridges and generic devices lack one |
| Catalog.AddServices | bridge.py:215-216 | the service loop changes only the device's services |
| Catalog.AddServicesLastWins | bridge.py:215-216 | after the service loop each listed id maps to its last listed type, and unlisted ids are untouched |
| Catalog.AddServicesKeys | bridge.py:215-216 | after the service loop the ids are the old ones plus every listed one |
| Catalog.AddServicesUnique | bridge.py:215-216 | the service loop keeps ids unique |
| Catalog.Populate | bridge.py:178-216 | before its refresh, a record's device has the class chosen from its service types, the record's ids and type, and no endpoints yet |
| Catalog.BuildDevice | bridge.py:178-217 | a record without services, metadata or product data raises. Otherwise the result is the refresh of the populated device, and a failing refresh raises the error of one of its endpoint GETs. A built device has the class chosen from its service types, the record's ids and type, and an endpoints map |
| Catalog.BuildDevicePopulates | bridge.py:209-216 | a built device holds the record's metadata and product data exactly, and each service id maps to its last listed type |
| Catalog.BuildAll | bridge.py:177-218 | a successful build yields one device per record |
| Catalog.BuildAllPointwise | bridge.py:177-218 | the build succeeds exactly when every record builds, and the i-th device is the one built from the i-th record |
| Catalog.BuildAllPrefixFailure | bridge.py:177-218 | once a prefix of the records fails, the whole build fails the same way |
| Catalog.FirstFailingRecordRaises | bridge.py:177-218 | the build raises the error of the first record that fails, whatever later records hold |
| Catalog.LightRecordEndpoints | bridge.py:178-217 | a record with the single `light` service `abc` becomes a light whose only endpoint is `/resource/light/abc` |
| Catalog.RefreshSingleFailure | huedevice.py:63-69 | a refresh over a single endpoint raises that endpoint's GET error |
| Catalog.LightGetAnswers | huedevice.py:51-55 | the device GET of `/resource/light/abc` goes to the version 2 URL and raises the bridge's 500 reply |
| Catalog.GetErrorBeforeMalformedRecord | bridge.py:177-217 | a light record whose refresh GET answers 500, followed by a record that cannot be read, raises the 500 error |
| Catalog.BuildEach | bridge.py:177-218 | the loop returns exactly the pointwise build |
| Catalog.DeviceRecords | bridge.py:177 | iterating `data.get('data')` yields a list's elements, and nothing for an empty object or string. A missing member, a scalar or a non-empty object or string raises |
| Catalog.DeviceRecordsOfListing | bridge.py:175-177 | a listing whose `data` is a list yields its elements, and a listing without `data` raises |
| Catalog.DeviceFetch | huedevice.py:51-55 | a device's GET succeeds exactly when the transport's `send` does, and yields the reply's `.data` or `send`'s error |
| Catalog.RefreshDevices | bridge.py:174-219 | the catalog is replaced wholesale exactly when the listing request, the iteration of its `data` and every record's read and build succeed. On any error it is left unchanged, and the error raised is the listing's, else the iteration's, else the first failing record's |
| Catalog.NameOf | bridge.py:223 | `metadata.get('name')` is the stored name, or `None` when there is none |
| Catalog.OfType | bridge.py:221-226 | the filter never grows the catalog |
| Catalog.OfTypeAppend | bridge.py:223-225 | filtering keeps catalog order |
| Catalog.OfTypeMembers | bridge.py:223-225 | a device is listed exactly when it is in the catalog and has the friendly type |
| Catalog.List | bridge.py:221-226 | `names` chooses the form. The devices form is the filtered catalog, and the names form is each filtered device's `name` metadata, position by position |
| Catalog.ListFormsAgree | bridge.py:221-226 | both forms describe the same devices in the same order |
| Catalog.NameTestCases | bridge.py:234-237 | only the case-insensitive test raises, and it does for a device with metadata but no name. A wanted device never raises, and a case-sensitive match also matches ignoring case |
| Catalog.WantedIgnoresCase | bridge.py:236 | ignoring case, queries that lower-case alike want the same devices |
| Catalog.Select | bridge.py:229-240 | the result never exceeds the catalog |
| Catalog.SelectMembers | bridge.py:234-239 | a device is returned exactly when it is in the catalog, has metadata, its name matches (case-folded unless case-sensitive) and its type matches when a type is given |
| Catalog.FindResult | bridge.py:228-240 | `regex` raises NotImplementedError when there is a device, and on an empty catalog returns `[]`. Otherwise the search raises exactly when some device's name cannot be lower-cased, and else returns the wanted devices in catalog order |
| Catalog.FindDevicesByName | bridge.py:228-240 | the loop returns or raises exactly what `FindResult` describes |
| Catalog.EmptyMetadataNeverFound | bridge.py:234 | devices with empty metadata are never found |
| Catalog.SelectSingle | bridge.py:234-239 | a one-device catalog returns the device exactly when it is wanted |
| Catalog.KitchenFoundIgnoringCase | bridge.py:236 | a light named "Kitchen" is found as "kitchen" by a case-insensitive search |
| Catalog.KitchenMissedCaseSensitive | bridge.py:235 | the same light is not found as "kitchen" by a case-sensitive search |
| Catalog.KitchenExcludedBySwitchFilter | bridge.py:238 | a type filter for switches excludes the light |
| Credentials.CreateConfig | bridge.py:75-94 | the address's entry becomes exactly the three given values and is returned, and every other address keeps its entry |
| Credentials.LoadConfig | bridge.py:96-105 | an entry is loaded exactly when the file exists and holds the address, and it is the stored one |
| Credentials.LoadAfterCreate | bridge.py:75-105 | loading after creating returns the entry just written, and other addresses load as before |
| Credentials.LoadUnknown | bridge.py:97-105 | a missing file or address loads nothing |
| Credentials.CreateOverwrites | bridge.py:88-93 | creating twice for one address keeps only the second entry |
| Discovery.ReplyClasses | bridge.py:145-153 | an announcing reply stops the loop. A swallowed exception, or a reply with a status other than 200 or 403, is passed over. An exception is passed over exactly when it is one of the three swallowed kinds |
| Discovery.AnnouncesInAnyCase | bridge.py:146-147 | a 200 or 403 page holding the product string in any letter case, anywhere, announces a bridge |
| Discovery.FirstBridge | bridge.py:141-153 | a found host is one of the probed hosts, and only an exception other than the three swallowed ones escapes |
| Discovery.FirstStop | bridge.py:141-153 | the first host whose probe neither passes silently nor is swallowed |
| Discovery.StopVerdict | bridge.py:145-153 | a stopping reply yields the host exactly when it announces a bridge, and an error exactly when it is an unswallowed exception |
| Discovery.FirstBridgeStops | bridge.py:141-153 | probing ends at the first host that does not pass, whose verdict is the outcome, and with no such host the outcome is `None` |
| Discovery.NoBridgeIffAllPass | bridge.py:141-153 | discovery finds nothing, without error, exactly when every probe passes |
| Discovery.Discover | bridge.py:134-153 | the probe loop returns exactly the first-stop verdict |
| Discovery.FoundHostIsFirst | bridge.py:145-147 | a host whose reply announces a bridge is returned when every earlier host passed |
| Discovery.ChooseAddress | bridge.py:44-48 | an explicit address wins, and otherwise discovery decides |
| Pairing.PairingBodyInjective | bridge.py:156 | different application names give different registration bodies |
| Pairing.BeforeHashOfAppName | bridge.py:61 | the application name is recovered from the registered name up to its `#` |
| Pairing.AppNameInjective | bridge.py:61 | for names without `#`, the registered `<app_name>#<app_instance>` determines both parts |
| Pairing.Interpret | bridge.py:161-171 | a retry comes from a truthy `data[0]['error']` of type 101. Credentials are `data[0]['success']`'s username and client key, taken when that error is falsy. A rejection carries the error's type (not 101) and its description, and any other failure is a payload error |
| Pairing.InterpretButtonNotPressed | bridge.py:161-165 | any answer whose first element has an `error` object of type 101 asks to poll again, whatever else it holds |
| Pairing.InterpretRejection | bridge.py:161-167 | an `error` object of any other type fails with that type and the error's description, and raises a payload error when the description is missing |
| Pairing.InterpretSuccess | bridge.py:161-171 | when the first element's `error` is missing or falsy, the username and client key of its `success` object are returned |
| Pairing.Decide | bridge.py:159-172 | a failed request fails the pairing with its error. The pairing keeps waiting exactly on a retry; it pairs only with the credentials read from the answer, and otherwise fails with the reading's error |
| Pairing.FirstDecisive | bridge.py:159-171 | the first answer that is not a retry |
| Pairing.PollOutcome | bridge.py:159-172 | the poll keeps waiting exactly when every answer is a retry |
| Pairing.DecidedAt | bridge.py:159-172 | the first non-retry answer decides the outcome |
| Pairing.PollOutcomeWitness | bridge.py:159-172 | credentials, or a failure, come from an answer preceded only by retries |
| Pairing.PollCredentials | bridge.py:159-172 | the poll loop returns exactly the outcome the first decisive answer gives |
| Pairing.RegistrationAnswers | bridge.py:160 | one answer per attempt |
| Pairing.GetCredentials | bridge.py:155-172 | as written, with no attempt it is still waiting, and with any attempt it fails |
| Pairing.IntendedGetCredentials | bridge.py:155-172 | corrected: with no attempt it is still waiting, and without an address the first attempt fails with "address not set" |
| Pairing.GetCredentialsNeverPairs | bridge.py:160 | as written, pairing fails on its first attempt whatever the bridge answers: with an unknown-version error, or "address not set" |
| Pairing.IntendedAnswer | bridge.py:156-160 | with version 1 each attempt is the bridge's reply to a POST of the registration body to `/api/` |
| Pairing.IntendedPairingSucceeds | bridge.py:155-172 | corrected: credentials the bridge grants after asking for the button are returned |

## Left out

- Sockets, the NIC lookup by `ioctl` and subnet host enumeration (`__get_own_ip`,
  `__get_nic_with_ip`, `__get_nic_netmask`, `__get_hosts`) are operating-system calls. Discovery takes the
  ordered host list as a parameter.
- Certificate handling, retries and timeouts of the urllib3 pool are not modelled. The network is a function from request
  to reply, and its exceptions are the three swallowed kinds plus "other".
- Decoding of the bytes of a reply (utf-8 and `json.loads`) is given with the reply: a
  reply carries its text and its decoded JSON, absent when the body is not JSON.
  A utf-8 decoding error of a discovery probe body is not modelled.
- The listing's `data` member is iterated as the code does (`Catalog.DeviceRecords`). Each
  record is read into its fields by a `read` parameter of `Catalog.RefreshDevices`,
  rather than by navigating the JSON. The read happens per record, before that
  record's device is built, so errors are raised in the code's record order. A record's
  missing `services`, `metadata` or `product_data` raises, which the model keeps. Missing `rid` or `rtype`
  keys inside a service entry are not represented.
- File I/O (`open`, `os.path.isfile`, `os.mkdir`, `json.dumps`) is left out. The credential
  file is its decoded contents, `None` when absent.
- Credentials.LoadConfig: a stored entry that is empty or `null` (falsy) would read as absent in
  the source. The file only ever holds the three-field records `__create_config` writes, so this case is not modelled.
- `print`, `sleep` and the `urllib3.disable_warnings` call have no effect on results and are left out.
- `Bridge.__init__` orchestration is only modelled in part. The address choice is `Discovery.ChooseAddress`,
  and the other steps are the separate operations (load or create
  config, pairing, refresh). The home-directory path and the `autoinit` flag are not modelled.
- The pairing poll loop is unbounded in the source. The model runs it over a finite sequence of answers, and
  `StillWaiting` stands for "not finished".
- The mutable default `headers={}` of `send` is shared between calls, so a key stored once stays
  in later calls' default headers. Each call here starts from the headers it is given.
- The `identify` attribute is always `None`, so it is not a field of the device record. It
  still appears in the properties copy, as `Unset`. The `send` callback is not
  an attribute of the model's device, which matches the copy `get_properties` returns.
- `get_properties` returns a shallow copy of `__dict__`, so its `metadata`, `product_data`, `services`
  and `endpoints` dictionaries are the device's own objects, and mutating them mutates the device. The
  model's values are immutable, so this aliasing is not represented.
- `get_endpoint_details` is folded into the `Fetch` parameter of `refresh_state`.
  `Catalog.DeviceFetch` builds that parameter from the transport.
- Text.Lower: only ASCII letters are case-folded. Python's `str.lower` also folds other Unicode letters.
- JsonData: numbers are integers only. The bridge's floating-point values (brightness, colour
  coordinates) are not modelled.

## Findings

| source | as written | input that shows it | evidently intended | confidence | as-written member | corrected member |
|---|---|---|---|---|---|---|
| bridge.py:160 | `send(..., api_version='1')` passes the version as a string, and `send` compares it with the integers 2 and 1, so it raises "Unknown API version: 1" | any bridge address and any bridge answer: the first registration attempt raises before a request is made | `api_version=1`, so the registration POST goes to `https://<address>/api/` and the poll loop runs | high; not executed | Pairing.GetCredentialsNeverPairs | Pairing.IntendedPairingSucceeds |
| huelight.py:14 | `self.send()` is called without `method` and `endpoint`, so a light that is off raises TypeError and the formatted body is never sent | a light whose first endpoint payload has `on.on == false`, then `turn_on()` | send the body by PUT to the light's endpoint, as the version 2 light resource expects | high that the call is broken; the target endpoint is inferred; not executed | HueLight.TurnOnOutcome | HueLight.IntendedTurnOnSends |

=== FILE: catalog.dfy ===
/** The device catalog of `Bridge`: turning the bridge's device records into
    typed devices (`refresh_devices`), and the two queries over the result
    (`list` and `find_devices_by_name`). */
module Catalog {
  import opened Results
  import opened Dicts
  import opened JsonData
  import opened Errors
  import opened Text
  import opened HueApi
  import opened HueDevice

  /** One entry of a device record's `services` list. */
  datatype Service = Service(rid: string, rtype: string)

  /** One element of the `data` list of `GET /resource/device`, as
      `device.get(...)` reads it: a missing key reads as `None`. */
  datatype RawDevice = RawDevice(
    id: Option<string>,
    idV1: Option<string>,
    deviceType: Option<string>,
    metadata: Option<Dict<Json>>,
    productData: Option<Dict<Json>>,
    services: Option<seq<Service>>)

  /** The client's state: its transport and the devices of the last refresh. */
  datatype Catalog = Catalog(api: ApiRequest, devices: seq<Device>)

  /** The `rtypes` list: the type of every service, in order. */
  function Rtypes(services: seq<Service>): (ts: seq<string>)
    ensures |ts| == |services|
    ensures forall i :: 0 <= i < |services| ==> ts[i] == services[i].rtype
  {
    if services == [] then [] else [services[0].rtype] + Rtypes(services[1..])
  }

  /** The class chosen for a record: `light` beats `button`, which beats
      `bridge`; anything else is a plain device. */
  function Classify(rtypes: seq<string>): (v: Variant)
    ensures v == Light <==> "light" in rtypes
    ensures v == Switch <==> "light" !in rtypes && "button" in rtypes
    ensures v == Bridge <==> "light" !in rtypes && "button" !in rtypes && "bridge" in rtypes
    ensures v == Generic <==> "light" !in rtypes && "button" !in rtypes && "bridge" !in rtypes
  {
    if "light" in rtypes then Light
    else if "button" in rtypes then Switch
    else if "bridge" in rtypes then Bridge
    else Generic
  }

  /** A device classified as a light or a switch has at least one service of
      its own resource type, so its default endpoint list is never empty; a
      bridge or plain device has none. */
  lemma ClassifiedDeviceHasEndpoints(services: seq<Service>)
    ensures var v := Classify(Rtypes(services));
            v.ResourceType().Some? ==> exists i :: 0 <= i < |services| && services[i].rtype == v.ResourceType().value
    ensures var v := Classify(Rtypes(services));
            v.ResourceType().None? <==> v == Bridge || v == Generic
  {
    var ts := Rtypes(services);
    match Classify(ts)
    case Light => RtypeListed(services, "light");
    case Switch => RtypeListed(services, "button");
    case Bridge =>
    case Generic =>
  }

  /** A type among the listed types is the type of some listed service. */
  lemma RtypeListed(services: seq<Service>, t: string)
    requires t in Rtypes(services)
    ensures exists i :: 0 <= i < |services| && services[i].rtype == t
  {
    var ts := Rtypes(services);
    var i :| 0 <= i < |ts| && ts[i] == t;
    assert services[i].rtype == t;
  }

  /** `for service in services: d.add_service(service['rid'], service['rtype'])` */
  function AddServices(d: Device, services: seq<Service>): (r: Device)
    ensures r == d.(services := r.services)
    decreases |services|
  {
    if services == [] then d
    else
      var last := services[|services| - 1];
      AddService(AddServices(d, services[..|services| - 1]), last.rid, last.rtype)
  }

  /** The type of the last service listed under `rid`, if any. */
  function LastType(services: seq<Service>, rid: string): Option<string>
    decreases |services|
  {
    if services == [] then None
    else if services[|services| - 1].rid == rid then Some(services[|services| - 1].rtype)
    else LastType(services[..|services| - 1], rid)
  }

  /** After the loop, every listed id maps to the type of its LAST listing
      (later duplicates overwrite), and ids not listed keep their old type. */
  lemma {:induction false} AddServicesLastWins(d: Device, services: seq<Service>, rid: string)
    ensures Get(AddServices(d, services).services, rid)
         == if LastType(services, rid).Some? then LastType(services, rid) else Get(d.services, rid)
    decreases |services|
  {
    if services != [] {
      AddServicesLastWins(d, services[..|services| - 1], rid);
    }
  }

  /** Some service of the listing has the id `rid`. */
  predicate Listed(services: seq<Service>, rid: string) {
    exists i :: 0 <= i < |services| && services[i].rid == rid
  }

  /** An id is listed in a non-empty listing when it is listed before the
      last service or is the id of the last service. */
  lemma ListedLast(services: seq<Service>, rid: string)
    requires services != []
    ensures Listed(services, rid)
        <==> Listed(services[..|services| - 1], rid) || services[|services| - 1].rid == rid
  {
    var init := services[..|services| - 1];
    if Listed(services, rid) && services[|services| - 1].rid != rid {
      var i :| 0 <= i < |services| && services[i].rid == rid;
      assert services[i] == init[i];
    }
    if Listed(init, rid) {
      var i :| 0 <= i < |init| && init[i].rid == rid;
      assert services[i] == init[i];
    }
  }

  /** After the loop, the ids are the old ones and every listed one. */
  lemma {:induction false} AddServicesKeys(d: Device, services: seq<Service>, rid: string)
    ensures rid in Keys(AddServices(d, services).services)
        <==> rid in Keys(d.services) || Listed(services, rid)
    decreases |services|
  {
    if services != [] {
      var init := services[..|services| - 1];
      var last := services[|services| - 1];
      AddServicesKeys(d, init, rid);
      var prev := AddServices(d, init);
      assert rid in Keys(AddServices(d, services).services) <==> rid in Keys(prev.services) || rid == last.rid;
      ListedLast(services, rid);
    }
  }

  /** The service-adding loop keeps the ids unique. */
  lemma {:induction false} AddServicesUnique(d: Device, services: seq<Service>)
    requires UniqueKeys(d.services)
    ensures UniqueKeys(AddServices(d, services).services)
    decreases |services|
  {
    if services != [] {
      var last := services[|services| - 1];
      var prev := AddServices(d, services[..|services| - 1]);
      AddServicesUnique(d, services[..|services| - 1]);
      PutKeepsUnique(prev.services, last.rid, last.rtype);
    }
  }

  /** The device a record describes before its refresh: the class chosen
      from its service types, the record's ids and type, the copied metadata
      and product data, and the added services. */
  function Populate(raw: RawDevice): (d: Device)
    requires raw.services.Some? && raw.metadata.Some? && raw.productData.Some?
    ensures d.variant == Classify(Rtypes(raw.services.value))
    ensures d.id == raw.id && d.idV1 == raw.idV1 && d.deviceType == raw.deviceType
    ensures d.endpoints.None?
  {
    var d := NewDevice(Classify(Rtypes(raw.services.value)), raw.id, raw.idV1, raw.deviceType);
    var d := d.(metadata := Reapply(d.metadata, raw.metadata.value, |raw.metadata.value|));
    var d := d.(productData := Reapply(d.productData, raw.productData.value, |raw.productData.value|));
    AddServices(d, raw.services.value)
  }

  /** Everything `refresh_devices` does for one record: choose the class,
      copy metadata and product data with their nested loops, add the
      services, and refresh the endpoints. A missing `services`, `metadata` or
      `product_data` list raises TypeError on iteration; otherwise the device
      is the refreshed populated device, and a refresh that fails raises the
      error of one of its GETs. */
  function BuildDevice(raw: RawDevice, fetch: Fetch): (r: Result<Device, Error>)
    ensures raw.services.None? || raw.metadata.None? || raw.productData.None? ==> r == Failure(DataError)
    ensures raw.services.Some? && raw.metadata.Some? && raw.productData.Some? ==>
              r == RefreshState(Populate(raw), fetch)
    ensures raw.services.Some? && raw.metadata.Some? && raw.productData.Some? && r.Failure? ==>
              exists p :: p in GetEndpoints(Populate(raw), None, Num(2)).value && fetch(p) == Failure(r.error)
    ensures r.Success? ==> r.value.variant == Classify(Rtypes(raw.services.value))
    ensures r.Success? ==> r.value.id == raw.id && r.value.idV1 == raw.idV1 && r.value.deviceType == raw.deviceType
    ensures r.Success? ==> r.value.endpoints.Some?
  {
    var _ :- Found(raw.services);
    var _ :- Found(raw.metadata);
    var _ :- Found(raw.productData);
    RefreshStateSucceeds(Populate(raw), fetch);
    RefreshState(Populate(raw), fetch)
  }

  /** The device built from a record holds the record's metadata and product
      data exactly, and each listed service id maps to its last listed type. */
  lemma BuildDevicePopulates(raw: RawDevice, fetch: Fetch, rid: string)
    requires BuildDevice(raw, fetch).Success?
    requires UniqueKeys(raw.metadata.value) && UniqueKeys(raw.productData.value)
    ensures BuildDevice(raw, fetch).value.metadata == raw.metadata.value
    ensures BuildDevice(raw, fetch).value.productData == raw.productData.value
    ensures Get(BuildDevice(raw, fetch).value.services, rid) == LastType(raw.services.value, rid)
  {
    var services := raw.services.value;
    var md := raw.metadata.value;
    var pd := raw.productData.value;
    ReapplyCopies(md, |md|);
    ReapplyCopies(pd, |pd|);
    var start := NewDevice(Classify(Rtypes(services)), raw.id, raw.idV1, raw.deviceType);
    var d := start.(metadata := md, productData := pd);
    AddServicesLastWins(d, services, rid);
    var empty: Dict<string> := [];
    assert Get(empty, rid) == None;
  }

  /** The loop of `refresh_devices` over the records, with `build` turning
      one record into a device: one device per record, in order; the first
      record that fails aborts the whole refresh. */
  function BuildAll<R>(records: seq<R>, build: R -> Result<Device, Error>): (r: Result<seq<Device>, Error>)
    ensures r.Success? ==> |r.value| == |records|
    decreases |records|
  {
    if records == [] then Success([])
    else
      var built :- BuildAll(records[..|records| - 1], build);
      var d :- build(records[|records| - 1]);
      Success(built + [d])
  }

  /** A refresh succeeds exactly when every record builds, and then the i-th
      device is the one built from the i-th record. */
  lemma {:induction false} BuildAllPointwise<R>(records: seq<R>, build: R -> Result<Device, Error>)
    ensures BuildAll(records, build).Success? <==> forall i :: 0 <= i < |records| ==> build(records[i]).Success?
    ensures BuildAll(records, build).Success? ==>
              forall i :: 0 <= i < |records| ==> BuildAll(records, build).value[i] == build(records[i]).value
    decreases |records|
  {
    if records != [] {
      var init := records[..|records| - 1];
      BuildAllPointwise(init, build);
      assert forall i :: 0 <= i < |init| ==> init[i] == records[i];
    }
  }

  /** Once a prefix of the records fails, the whole refresh fails the same way. */
  lemma {:induction false} BuildAllPrefixFailure<R>(records: seq<R>, k: nat, build: R -> Result<Device, Error>)
    requires k <= |records|
    requires BuildAll(records[..k], build).Failure?
    ensures BuildAll(records, build) == BuildAll(records[..k], build)
    decreases |records| - k
  {
    if k < |records| {
      var next := records[..k + 1];
      assert next[..k] == records[..k];
      BuildAllPrefixFailure(records, k + 1, build);
    } else {
      assert records[..k] == records;
    }
  }

  /** Building one more record extends a successful prefix by its device. */
  lemma BuildAllStep<R>(records: seq<R>, i: nat, build: R -> Result<Device, Error>)
    requires i < |records|
    ensures BuildAll(records[..i + 1], build)
         == match BuildAll(records[..i], build)
            case Failure(e) => Failure(e)
            case Success(built) =>
              match build(records[i])
              case Failure(e) => Failure(e)
              case Success(d) => Success(built + [d])
  {
    assert records[..i + 1][..i] == records[..i];
  }

  /** The refresh raises the error of the first record that fails to build,
      whatever the records after it hold. */
  lemma FirstFailingRecordRaises<R>(records: seq<R>, k: nat, build: R -> Result<Device, Error>)
    requires k < |records|
    requires forall j :: 0 <= j < k ==> build(records[j]).Success?
    requires build(records[k]).Failure?
    ensures BuildAll(records, build) == Failure(build(records[k]).error)
  {
    var prefix := records[..k];
    assert forall j :: 0 <= j < k ==> prefix[j] == records[j];
    BuildAllPointwise(prefix, build);
    BuildAllStep(records, k, build);
    BuildAllPrefixFailure(records, k + 1, build);
  }

  /** The light record with the single `light` service `abc`. */
  function LightRecord(): RawDevice {
    RawDevice(Some("dev"), None, None, Some([]), Some([]), Some([Service("abc", "light")]))
  }

  /** That record becomes a light whose only endpoint is its service's path. */
  lemma LightRecordEndpoints()
    ensures Populate(LightRecord()).variant == Light
    ensures GetEndpoints(Populate(LightRecord()), Some("light"), Num(2)).value == ["/resource/light/abc"]
  {
    var d := Populate(LightRecord());
    var empty: Dict<string> := [];
    assert d.services == Put(empty, "abc", "light");
    assert ResourcePath("light", "abc") == "/resource/light/abc";
    EndpointsAppend([], d.services, Some("light"), Num(2));
  }

  /** A refresh over a single endpoint raises that endpoint's GET error. */
  lemma RefreshSingleFailure(d: Device, fetch: Fetch, path: string)
    requires GetEndpoints(d, d.ResourceType(), Num(2)).value == [path]
    requires fetch(path).Failure?
    ensures RefreshState(d, fetch) == Failure(fetch(path).error)
  {
    assert FetchInto([], [path], fetch) == Failure(fetch(path).error);
  }

  /** The device GET of the light's path reaches the version 2 URL. */
  lemma LightGetAnswers(api: ApiRequest, net: Network, text: string, decoded: Option<Json>)
    requires IsSet(api.address) && api.apiVersion == Num(2)
    requires net(HttpRequest("GET", "https://" + api.address.value + "/clip/v2//resource/light/abc", None, WithKey(api, [])))
             == Reply(500, text, decoded)
    ensures DeviceFetch(api, net)("/resource/light/abc") == Failure(HttpStatus(500, text))
  {
    var path := "/resource/light/abc";
    var url := "https://" + api.address.value + "/clip/v2/" + path;
    assert url == "https://" + api.address.value + "/clip/v2//resource/light/abc";
    var req := HttpRequest("GET", url, None, WithKey(api, []));
    assert EffectiveVersion(api, Null) == Num(2);
    assert Prepare(api, "GET", path, None, [], Null) == Success(req);
    assert Send(api, "GET", path, None, [], Null, net) == Failure(HttpStatus(500, text));
  }

  /** A light record whose refresh GET answers 500, followed by a record
      that cannot be read: the refresh raises the 500 error, because the first
      record is built, GET included, before the second is read. */
  lemma GetErrorBeforeMalformedRecord(api: ApiRequest, net: Network, read: Json -> Result<RawDevice, Error>,
                                      first: Json, second: Json, text: string, decoded: Option<Json>)
    requires IsSet(api.address) && api.apiVersion == Num(2)
    requires read(first) == Success(LightRecord())
    requires read(second) == Failure(DataError)
    requires net(HttpRequest("GET", "https://" + api.address.value + "/clip/v2//resource/light/abc", None, WithKey(api, [])))
             == Reply(500, text, decoded)
    ensures BuildAll([first, second], RecordBuilder(read, DeviceFetch(api, net))) == Failure(HttpStatus(500, text))
  {
    var fetch := DeviceFetch(api, net);
    LightRecordEndpoints();
    LightGetAnswers(api, net, text, decoded);
    RefreshSingleFailure(Populate(LightRecord()), fetch, "/resource/light/abc");
    assert BuildDevice(LightRecord(), fetch) == Failure(HttpStatus(500, text));
    assert RecordBuilder(read, fetch)(first) == Failure(HttpStatus(500, text));
    FirstFailingRecordRaises([first, second], 0, RecordBuilder(read, fetch));
  }

  /** The loop of `refresh_devices` over the listed records. */
  method BuildEach<R>(records: seq<R>, build: R -> Result<Device, Error>)
    returns (r: Result<seq<Device>, Error>)
    ensures r == BuildAll(records, build)
  {
    var devices: seq<Device> := [];
    var i := 0;
    while i < |records|
      invariant 0 <= i <= |records|
      invariant BuildAll(records[..i], build) == Success(devices)
    {
      var d := build(records[i]);
      BuildAllStep(records, i, build);
      if d.Failure? {
        BuildAllPrefixFailure(records, i + 1, build);
        return Failure(d.error);
      }
      devices := devices + [d.value];
      i := i + 1;
    }
    assert records[..i] == records;
    return Success(devices);
  }

  /** `for device in api_response.data.get('data')`: the records iterated.
      A list yields its elements. An empty object or string yields nothing.
      A non-empty one yields keys or characters, on which `device.get`
      raises before anything else happens. A missing member (`None`), a
      boolean or a number cannot be iterated, and a listing that is not an
      object has no `.get`. */
  function DeviceRecords(data: Json): (r: Result<seq<Json>, Error>)
    ensures r.Failure? ==> r.error == DataError
    ensures r.Success? <==>
              var listed := Lookup(data, "data");
              listed.Some? && (listed.value.Arr? || ((listed.value.Obj? || listed.value.Str?) && !Truthy(listed.value)))
    ensures r.Success? ==> var listed := Lookup(data, "data").value;
                           r.value == if listed.Arr? then listed.items else []
  {
    var listed :- Found(Lookup(data, "data"));
    match listed
    case Arr(items) => Success(items)
    case Obj(fields) => if fields == [] then Success([]) else Failure(DataError)
    case Str(text) => if text == "" then Success([]) else Failure(DataError)
    case _ => Failure(DataError)
  }

  /** A listing of the bridge's shape yields the elements of its `data`
      list; a listing without `data` raises. */
  lemma DeviceRecordsOfListing(fields: Dict<Json>, items: seq<Json>)
    ensures Get(fields, "data") == Some(Arr(items)) ==> DeviceRecords(Obj(fields)) == Success(items)
    ensures "data" !in Keys(fields) ==> DeviceRecords(Obj(fields)) == Failure(DataError)
  {
  }

  /** Everything done for one listed record: read its members, then build the
      device. `read` stands for the `device.get(...)` lookups and raises when
      they do. */
  function RecordBuilder(read: Json -> Result<RawDevice, Error>, fetch: Fetch): Json -> Result<Device, Error> {
    (record: Json) =>
      match read(record)
      case Failure(e) => Failure(e)
      case Success(raw) => BuildDevice(raw, fetch)
  }

  /** The GET each device issues through the transport's `send`, keeping `.data`. */
  function DeviceFetch(api: ApiRequest, net: Network): (fetch: Fetch)
    ensures forall endpoint :: fetch(endpoint).Success? <==> Send(api, "GET", endpoint, None, [], Null, net).Success?
    ensures forall endpoint :: fetch(endpoint).Success? ==>
              fetch(endpoint).value == Send(api, "GET", endpoint, None, [], Null, net).value.data
    ensures forall endpoint :: fetch(endpoint).Failure? ==>
              fetch(endpoint).error == Send(api, "GET", endpoint, None, [], Null, net).error
  {
    (endpoint: string) =>
      match Send(api, "GET", endpoint, None, [], Null, net)
      case Success(response) => Success(response.data)
      case Failure(e) => Failure(e)
  }

  /** `refresh_devices()`: fetch the device list, build one device per record
      and replace the catalog's devices wholesale. On any error the catalog is
      left as it was and the error is raised: the listing's, else the one from
      iterating its `data`, else the first failing record's. */
  method RefreshDevices(c: Catalog, net: Network, read: Json -> Result<RawDevice, Error>)
    returns (next: Catalog, raised: Option<Error>)
    ensures var listing := Send(c.api, "GET", "/resource/device", None, [], Null, net);
            raised.None? <==> listing.Success? && DeviceRecords(listing.value.data).Success?
                              && BuildAll(DeviceRecords(listing.value.data).value, RecordBuilder(read, DeviceFetch(c.api, net))).Success?
    ensures var listing := Send(c.api, "GET", "/resource/device", None, [], Null, net);
            raised.None? ==> next == c.(devices := BuildAll(DeviceRecords(listing.value.data).value,
                                                            RecordBuilder(read, DeviceFetch(c.api, net))).value)
    ensures raised.Some? ==> next == c
    ensures var listing := Send(c.api, "GET", "/resource/device", None, [], Null, net);
            raised.Some? ==>
              raised.value == if listing.Failure? then listing.error
                              else if DeviceRecords(listing.value.data).Failure? then DeviceRecords(listing.value.data).error
                              else BuildAll(DeviceRecords(listing.value.data).value, RecordBuilder(read, DeviceFetch(c.api, net))).error
  {
    next := c;
    raised := None;
    var listing := Send(c.api, "GET", "/resource/device", None, [], Null, net);
    if listing.Failure? {
      raised := Some(listing.error);
      return;
    }
    var records := DeviceRecords(listing.value.data);
    if records.Failure? {
      raised := Some(records.error);
      return;
    }
    var built := BuildEach(records.value, RecordBuilder(read, DeviceFetch(c.api, net)));
    if built.Failure? {
      raised := Some(built.error);
      return;
    }
    var devices := built.value;
    next := c.(devices := devices);
  }

  /** `device.metadata.get('name')`: the stored name, or `None` when there is none. */
  function NameOf(d: Device): (r: Json)
    ensures "name" in Keys(d.metadata) ==> Some(r) == Get(d.metadata, "name")
    ensures "name" !in Keys(d.metadata) ==> r == Null
  {
    Get(d.metadata, "name").GetOr(Null)
  }

  /** The devices whose `friendly_type` is `t`, in catalog order. */
  function OfType(devices: seq<Device>, t: string): (r: seq<Device>)
    ensures |r| <= |devices|
    decreases |devices|
  {
    if devices == [] then []
    else
      var last := devices[|devices| - 1];
      OfType(devices[..|devices| - 1], t) + (if last.FriendlyType() == t then [last] else [])
  }

  /** Filtering commutes with concatenation, so catalog order is kept. */
  lemma {:induction false} OfTypeAppend(a: seq<Device>, b: seq<Device>, t: string)
    ensures OfType(a + b, t) == OfType(a, t) + OfType(b, t)
    decreases |b|
  {
    if b == [] {
      assert a + b == a;
    } else {
      var init := b[..|b| - 1];
      var last := b[|b| - 1];
      var tail := if last.FriendlyType() == t then [last] else [];
      assert (a + b)[..|a + b| - 1] == a + init;
      assert (a + b)[|a + b| - 1] == last;
      OfTypeAppend(a, init, t);
      calc {
        OfType(a + b, t);
        OfType(a + init, t) + tail;
        (OfType(a, t) + OfType(init, t)) + tail;
        { Associative(OfType(a, t), OfType(init, t), tail); }
        OfType(a, t) + (OfType(init, t) + tail);
        OfType(a, t) + OfType(b, t);
      }
    }
  }

  /** A device is listed exactly when it is in the catalog and of the type. */
  lemma {:induction false} OfTypeMembers(devices: seq<Device>, t: string)
    ensures forall d :: d in OfType(devices, t) <==> d in devices && d.FriendlyType() == t
    decreases |devices|
  {
    if devices != [] {
      OfTypeMembers(devices[..|devices| - 1], t);
      SplitLast(devices);
    }
  }

  /** What `list` returns: names or the device objects themselves. */
  datatype Listing = Names(names: seq<Json>) | Members(members: seq<Device>)

  /** `list(device_type, names)`. */
  function List(devices: seq<Device>, deviceType: string, names: bool): (r: Listing)
    ensures names <==> r.Names?
    ensures !names ==> r.members == OfType(devices, deviceType)
    ensures names ==> |r.names| == |OfType(devices, deviceType)|
    ensures names ==> forall i :: 0 <= i < |r.names| ==> r.names[i] == NameOf(OfType(devices, deviceType)[i])
  {
    var selected := OfType(devices, deviceType);
    if names then Names(seq(|selected|, i requires 0 <= i < |selected| => NameOf(selected[i])))
    else Members(selected)
  }

  /** Both forms of `list` describe the same devices: the names are those
      of the listed members, position by position. */
  lemma ListFormsAgree(devices: seq<Device>, deviceType: string)
    ensures |List(devices, deviceType, true).names| == |List(devices, deviceType, false).members|
    ensures forall i :: 0 <= i < |List(devices, deviceType, true).names| ==>
              List(devices, deviceType, true).names[i] == NameOf(List(devices, deviceType, false).members[i])
  {
  }

  /** The name test of `find_devices_by_name` raises AttributeError when it
      must lower-case a name that is not a string (missing or otherwise). */
  predicate NameTestRaises(d: Device, caseSensitive: bool) {
    !caseSensitive && d.metadata != [] && !NameOf(d).Str?
  }

  /** The devices `find_devices_by_name` returns: non-empty metadata, a name
      equal to `name` (after lower-casing both unless `caseSensitive`), and
      the requested friendly type when one is given. */
  predicate Wanted(d: Device, name: string, deviceType: Option<string>, caseSensitive: bool) {
    && d.metadata != []
    && (if caseSensitive then NameOf(d) == Str(name)
        else NameOf(d).Str? && Lower(NameOf(d).s) == Lower(name))
    && (!IsSet(deviceType) || d.FriendlyType() == deviceType.value)
  }

  /** Only the case-insensitive test can raise, and it does on a named-less
      device with metadata; a wanted device never raises, and a case-sensitive
      match is also a match ignoring case. */
  lemma NameTestCases(d: Device, name: string, deviceType: Option<string>)
    ensures !NameTestRaises(d, true)
    ensures d.metadata != [] && "name" !in Keys(d.metadata) ==> NameTestRaises(d, false)
    ensures Wanted(d, name, deviceType, true) ==> !NameTestRaises(d, true)
    ensures Wanted(d, name, deviceType, false) ==> !NameTestRaises(d, false)
    ensures Wanted(d, name, deviceType, true) ==> Wanted(d, name, deviceType, false)
  {
  }

  /** Ignoring case, two queries that lower-case alike want the same devices. */
  lemma WantedIgnoresCase(d: Device, a: string, b: string, deviceType: Option<string>)
    requires Lower(a) == Lower(b)
    ensures Wanted(d, a, deviceType, false) <==> Wanted(d, b, deviceType, false)
  {
  }

  /** The wanted devices, in catalog order. */
  function Select(devices: seq<Device>, name: string, deviceType: Option<string>, caseSensitive: bool): (r: seq<Device>)
    ensures |r| <= |devices|
    decreases |devices|
  {
    if devices == [] then []
    else
      var last := devices[|devices| - 1];
      Select(devices[..|devices| - 1], name, deviceType, caseSensitive)
        + (if Wanted(last, name, deviceType, caseSensitive) then [last] else [])
  }

  /** A device is selected exactly when it is in the catalog and wanted. */
  lemma {:induction false} SelectMembers(devices: seq<Device>, name: string, deviceType: Option<string>, caseSensitive: bool)
    ensures forall d :: d in Select(devices, name, deviceType, caseSensitive)
                        <==> d in devices && Wanted(d, name, deviceType, caseSensitive)
    decreases |devices|
  {
    if devices != [] {
      var init := devices[..|devices| - 1];
      SelectMembers(init, name, deviceType, caseSensitive);
      assert devices == init + [devices[|devices| - 1]];
    }
  }

  /** Selecting from one more device appends it when it is wanted. */
  lemma SelectStep(devices: seq<Device>, i: nat, name: string, deviceType: Option<string>, caseSensitive: bool)
    requires i < |devices|
    ensures Select(devices[..i + 1], name, deviceType, caseSensitive)
         == Select(devices[..i], name, deviceType, caseSensitive)
            + (if Wanted(devices[i], name, deviceType, caseSensitive) then [devices[i]] else [])
  {
    assert devices[..i + 1][..i] == devices[..i];
  }

  /** No device of `ds` makes the name test raise. */
  predicate NoneRaises(ds: seq<Device>, caseSensitive: bool) {
    forall j :: 0 <= j < |ds| ==> !NameTestRaises(ds[j], caseSensitive)
  }

  /** A clean prefix stays clean when the next device does not raise. */
  lemma NoneRaisesStep(devices: seq<Device>, i: nat, caseSensitive: bool)
    requires i < |devices| && NoneRaises(devices[..i], caseSensitive)
    requires !NameTestRaises(devices[i], caseSensitive)
    ensures NoneRaises(devices[..i + 1], caseSensitive)
  {
    assert forall j :: 0 <= j < i ==> devices[..i + 1][j] == devices[..i][j];
  }

  /** What `find_devices_by_name` returns or raises: `regex` raises as soon
      as there is a device to look at; otherwise the first device whose name
      test raises aborts the search, and failing that the wanted devices are
      returned in catalog order. */
  function FindResult(devices: seq<Device>, name: string, deviceType: Option<string>,
                      caseSensitive: bool, regex: bool): (r: Result<seq<Device>, Error>)
    ensures regex && devices != [] ==> r == Failure(NotImplemented)
    ensures regex && devices == [] ==> r == Success([])
    ensures !regex ==> (r.Failure? <==> exists i :: 0 <= i < |devices| && NameTestRaises(devices[i], caseSensitive))
    ensures !regex && r.Failure? ==> r.error == DataError
    ensures r.Success? ==> r.value == Select(devices, name, deviceType, caseSensitive)
  {
    if regex && devices != [] then Failure(NotImplemented)
    else if !NoneRaises(devices, caseSensitive) then Failure(DataError)
    else Success(Select(devices, name, deviceType, caseSensitive))
  }

  /** `find_devices_by_name(device_name, device_type, case_sensitive, regex)`. */
  method FindDevicesByName(devices: seq<Device>, name: string, deviceType: Option<string>,
                           caseSensitive: bool, regex: bool)
    returns (r: Result<seq<Device>, Error>)
    ensures r == FindResult(devices, name, deviceType, caseSensitive, regex)
  {
    var found: seq<Device> := [];
    var i := 0;
    while i < |devices|
      invariant 0 <= i <= |devices|
      invariant found == Select(devices[..i], name, deviceType, caseSensitive)
      invariant NoneRaises(devices[..i], caseSensitive)
      invariant regex ==> i == 0
    {
      var d := devices[i];
      if regex {
        return Failure(NotImplemented);
      }
      if NameTestRaises(d, caseSensitive) {
        assert !NoneRaises(devices, caseSensitive);
        return Failure(DataError);
      }
      NoneRaisesStep(devices, i, caseSensitive);
      SelectStep(devices, i, name, deviceType, caseSensitive);
      if Wanted(d, name, deviceType, caseSensitive) {
        found := found + [d];
      }
      i := i + 1;
    }
    assert devices[..i] == devices;
    return Success(found);
  }

  /** Devices with empty metadata are never found, whatever the query. */
  lemma EmptyMetadataNeverFound(devices: seq<Device>, name: string, deviceType: Option<string>, caseSensitive: bool)
    ensures forall d :: d in Select(devices, name, deviceType, caseSensitive) ==> d.metadata != []
  {
    SelectMembers(devices, name, deviceType, caseSensitive);
  }

  /** A catalog of one device selects it exactly when it is wanted. */
  lemma SelectSingle(d: Device, name: string, deviceType: Option<string>, caseSensitive: bool)
    ensures Select([d], name, deviceType, caseSensitive) == if Wanted(d, name, deviceType, caseSensitive) then [d] else []
  {
    assert [d][..0] == [];
  }

  /** "Kitchen" and "kitchen" differ only in case. */
  lemma KitchenFolds()
    ensures Lower("Kitchen") == Lower("kitchen")
  {
    assert "Kitchen" == ['K'] + "itchen";
    assert "kitchen" == ['k'] + "itchen";
    LowerCons('K', "itchen");
    LowerCons('k', "itchen");
  }

  /** A light named "Kitchen" is found as "kitchen" when the search ignores case. */
  lemma KitchenFoundIgnoringCase(d: Device)
    requires d.variant == Light && d.metadata == [("name", Str("Kitchen"))]
    ensures Select([d], "kitchen", None, false) == [d]
  {
    KitchenFolds();
    assert Wanted(d, "kitchen", None, false) by {
      assert NameOf(d) == Str("Kitchen");
    }
    SelectSingle(d, "kitchen", None, false);
  }

  /** The same light is not found as "kitchen" by a case-sensitive search. */
  lemma KitchenMissedCaseSensitive(d: Device)
    requires d.variant == Light && d.metadata == [("name", Str("Kitchen"))]
    ensures Select([d], "kitchen", None, true) == []
  {
    assert !Wanted(d, "kitchen", None, true) by {
      assert NameOf(d) == Str("Kitchen");
      assert "Kitchen"[0] != "kitchen"[0];
    }
    SelectSingle(d, "kitchen", None, true);
  }

  /** A type filter for switches excludes the light, whatever its name. */
  lemma KitchenExcludedBySwitchFilter(d: Device)
    requires d.variant == Light && d.metadata == [("name", Str("Kitchen"))]
    ensures Select([d], "Kitchen", Some("switch"), false) == []
  {
    assert !Wanted(d, "Kitchen", Some("switch"), false) by {
      assert d.FriendlyType() == "light";
      assert "light"[0] != "switch"[0];
    }
    SelectSingle(d, "Kitchen", Some("switch"), false);
  }
}

=== FILE: credentials.dfy ===
/** The client configuration file `~/.pyhue/client`: one credential record
    per bridge address. The file is a map from address to record; `None`
    stands for a file that does not exist yet. */
module Credentials {
  import opened Results
  import opened JsonData

  /** The entry `__create_config` writes for one bridge. */
  datatype Record = Record(appName: string, username: Json, clientkey: Json)

  type ConfigFile = Option<map<string, Record>>

  /** The file's contents as `__create_config` reads them: empty when absent. */
  function Contents(file: ConfigFile): map<string, Record> {
    file.GetOr(map[])
  }

  /** `__create_config(...)`: the new file contents and the entry it returns.
      The entry for `address` is replaced by exactly the three given values;
      every other address keeps its entry. */
  function CreateConfig(file: ConfigFile, address: string, appName: string, username: Json, clientkey: Json)
    : (r: (map<string, Record>, Record))
    ensures r.1 == Record(appName, username, clientkey)
    ensures address in r.0 && r.0[address] == r.1
    ensures forall a :: a != address ==> (a in r.0 <==> file.Some? && a in file.value)
    ensures forall a :: a != address && a in r.0 ==> r.0[a] == file.value[a]
  {
    var entry := Record(appName, username, clientkey);
    (Contents(file)[address := entry], entry)
  }

  /** `__load_config(address)`: the stored entry, or `None` for the empty
      dict Python returns when there is no file or no entry. */
  function LoadConfig(file: ConfigFile, address: string): (r: Option<Record>)
    ensures r.Some? <==> file.Some? && address in file.value
    ensures r.Some? ==> r.value == file.value[address]
  {
    if file.Some? && address in file.value then Some(file.value[address]) else None
  }

  /** Loading right after creating gives back the entry just written, and
      loading any other address gives what it gave before. */
  lemma LoadAfterCreate(file: ConfigFile, address: string, appName: string, username: Json, clientkey: Json, other: string)
    requires other != address
    ensures var (written, entry) := CreateConfig(file, address, appName, username, clientkey);
            LoadConfig(Some(written), address) == Some(entry)
    ensures var (written, _) := CreateConfig(file, address, appName, username, clientkey);
            LoadConfig(Some(written), other) == LoadConfig(file, other)
  {
  }

  /** An address with no entry, or a missing file, loads nothing. */
  lemma LoadUnknown(file: ConfigFile, address: string)
    requires file.None? || address !in file.value
    ensures LoadConfig(file, address).None?
  {
  }

  /** Creating twice for the same address keeps only the second entry. */
  lemma CreateOverwrites(file: ConfigFile, address: string, a1: string, u1: Json, k1: Json, a2: string, u2: Json, k2: Json)
    ensures var (first, _) := CreateConfig(file, address, a1, u1, k1);
            CreateConfig(Some(first), address, a2, u2, k2) == CreateConfig(file, address, a2, u2, k2)
  {
    var (first, _) := CreateConfig(file, address, a1, u1, k1);
    var (second, _) := CreateConfig(Some(first), address, a2, u2, k2);
    var (direct, _) := CreateConfig(file, address, a2, u2, k2);
    assert second.Keys == direct.Keys;
    assert forall a :: a in second ==> second[a] == direct[a];
    assert second == direct;
  }
}

=== FILE: dicts.dfy ===
/** Python's insertion-ordered `dict` with string keys, as an association list.

    Assigning to an existing key overwrites its value where it stands;
    assigning to a new key appends it. Iteration follows insertion order. */
module Dicts {
  import opened Results

  type Dict<V> = seq<(string, V)>

  /** A non-empty sequence is its prefix followed by its last element. */
  lemma SplitLast<T>(s: seq<T>)
    requires s != []
    ensures s[..|s| - 1] + [s[|s| - 1]] == s
  {
  }

  /** Concatenation is associative. */
  lemma Associative<T>(a: seq<T>, b: seq<T>, c: seq<T>)
    ensures (a + b) + c == a + (b + c)
  {
  }

  /** A non-empty sequence is its first element followed by the rest. */
  lemma SplitFirst<T>(s: seq<T>)
    requires s != []
    ensures [s[0]] + s[1..] == s
    ensures forall x :: x in s <==> x == s[0] || x in s[1..]
  {
  }

  /** Appending after the head is appending to the whole sequence. */
  lemma ConsAppend<T>(s: seq<T>, x: T)
    requires s != []
    ensures [s[0]] + (s[1..] + [x]) == s + [x]
  {
  }

  /** Replacing the first element of a sequence. */
  lemma UpdateHead<T>(s: seq<T>, x: T)
    requires s != []
    ensures [x] + s[1..] == s[0 := x]
  {
  }

  /** Replacing a later element of a sequence is replacing it in the tail. */
  lemma UpdateTail<T>(s: seq<T>, i: nat, x: T)
    requires 0 < i < |s|
    ensures [s[0]] + s[1..][i - 1 := x] == s[i := x]
  {
  }

  /** The keys in iteration order. */
  function Keys<V>(d: Dict<V>): (ks: seq<string>)
    ensures |ks| == |d|
    ensures forall i :: 0 <= i < |d| ==> ks[i] == d[i].0
  {
    if d == [] then [] else [d[0].0] + Keys(d[1..])
  }

  /** The values in iteration order. */
  function Values<V>(d: Dict<V>): (vs: seq<V>)
    ensures |vs| == |d|
    ensures forall i :: 0 <= i < |d| ==> vs[i] == d[i].1
  {
    if d == [] then [] else [d[0].1] + Values(d[1..])
  }

  /** Every key occurs once, as in any Python dict. */
  predicate UniqueKeys<V>(d: Dict<V>) {
    forall i, j :: 0 <= i < j < |d| ==> d[i].0 != d[j].0
  }

  /** `d.get(k)`: the value stored under `k`, if any. */
  function Get<V>(d: Dict<V>, k: string): (r: Option<V>)
    ensures r.Some? <==> k in Keys(d)
    ensures r.Some? ==> exists i :: 0 <= i < |d| && d[i] == (k, r.value)
  {
    if d == [] then None
    else if d[0].0 == k then Some(d[0].1)
    else Get(d[1..], k)
  }

  /** The assignment itself: overwrite the first entry holding `k`, or
      append a new entry when there is none. */
  function Assign<V>(d: Dict<V>, k: string, v: V): Dict<V>
  {
    if d == [] then [(k, v)]
    else if d[0].0 == k then [(k, v)] + d[1..]
    else [d[0]] + Assign(d[1..], k, v)
  }

  /** Assignment keeps the key order and appends a new key at the end. */
  lemma {:induction false} AssignKeys<V>(d: Dict<V>, k: string, v: V)
    ensures Keys(Assign(d, k, v)) == if k in Keys(d) then Keys(d) else Keys(d) + [k]
  {
    if d != [] {
      assert Keys(d) == [d[0].0] + Keys(d[1..]);
      var r := Assign(d, k, v);
      if d[0].0 == k {
        assert r[1..] == d[1..];
        assert Keys(r) == [k] + Keys(d[1..]);
      } else {
        AssignKeys(d[1..], k, v);
        assert r[1..] == Assign(d[1..], k, v);
        assert Keys(r) == [d[0].0] + Keys(r[1..]);
        assert k in Keys(d) <==> k in Keys(d[1..]);
      }
    }
  }

  /** After assignment the key reads back the assigned value. */
  lemma {:induction false} AssignGet<V>(d: Dict<V>, k: string, v: V)
    ensures Get(Assign(d, k, v), k) == Some(v)
  {
    if d != [] && d[0].0 != k {
      AssignGet(d[1..], k, v);
      assert Assign(d, k, v)[1..] == Assign(d[1..], k, v);
    }
  }

  /** Assignment leaves every other key's value alone. */
  lemma {:induction false} AssignOther<V>(d: Dict<V>, k: string, v: V, j: string)
    requires j != k
    ensures Get(Assign(d, k, v), j) == Get(d, j)
  {
    if d != [] {
      var r := Assign(d, k, v);
      if d[0].0 == k {
        assert r[1..] == d[1..];
      } else if d[0].0 != j {
        AssignOther(d[1..], k, v, j);
        assert r[1..] == Assign(d[1..], k, v);
      }
    }
  }

  /** `d[k] = v`. */
  function Put<V>(d: Dict<V>, k: string, v: V): (r: Dict<V>)
    ensures Keys(r) == if k in Keys(d) then Keys(d) else Keys(d) + [k]
    ensures Get(r, k) == Some(v)
    ensures forall j :: j != k ==> Get(r, j) == Get(d, j)
  {
    AssignKeys(d, k, v);
    AssignGet(d, k, v);
    forall j | j != k
      ensures Get(Assign(d, k, v), j) == Get(d, j)
    {
      AssignOther(d, k, v, j);
    }
    Assign(d, k, v)
  }

  /** Assignment keeps the keys of a Python dict unique. */
  lemma PutKeepsUnique<V>(d: Dict<V>, k: string, v: V)
    requires UniqueKeys(d)
    ensures UniqueKeys(Put(d, k, v))
  {
    var r := Put(d, k, v);
    assert Keys(r) == if k in Keys(d) then Keys(d) else Keys(d) + [k];
    forall i, j | 0 <= i < j < |r|
      ensures r[i].0 != r[j].0
    {
      assert Keys(r)[i] == r[i].0 && Keys(r)[j] == r[j].0;
    }
  }

  /** Overwriting a key with the value it already holds changes nothing. */
  lemma {:induction false} PutSame<V>(d: Dict<V>, k: string, v: V)
    requires Get(d, k) == Some(v)
    ensures Put(d, k, v) == d
  {
    if d[0].0 != k {
      PutSame(d[1..], k, v);
    }
  }

  /** Assigning to a key that is not present appends the entry. */
  lemma {:induction false} PutNew<V>(d: Dict<V>, k: string, v: V)
    requires k !in Keys(d)
    ensures Put(d, k, v) == d + [(k, v)]
  {
    if d != [] {
      assert d[0].0 != k;
      PutNew(d[1..], k, v);
      calc {
        Put(d, k, v);
        [d[0]] + Put(d[1..], k, v);
        [d[0]] + (d[1..] + [(k, v)]);
        { ConsAppend(d, (k, v)); }
        d + [(k, v)];
      }
    }
  }

  /** In a dictionary with unique keys, the lookup of an entry's key finds that entry. */
  lemma {:induction false} GetUnique<V>(d: Dict<V>, i: nat)
    requires UniqueKeys(d)
    requires i < |d|
    ensures Get(d, d[i].0) == Some(d[i].1)
  {
    if i > 0 {
      assert d[0].0 != d[i].0;
      GetUnique(d[1..], i - 1);
    }
  }

  /** `for key in src: acc[key] = src[key]`: every entry of `src`, in order. */
  function PutAll<V>(acc: Dict<V>, src: Dict<V>): Dict<V>
    decreases |src|
  {
    if src == [] then acc
    else
      var last := src[|src| - 1];
      Put(PutAll(acc, src[..|src| - 1]), last.0, last.1)
  }

  /** Copying every entry of a dictionary with unique keys into an empty one
      rebuilds it, order included. */
  lemma {:induction false} PutAllIntoEmpty<V>(src: Dict<V>)
    requires UniqueKeys(src)
    ensures PutAll([], src) == src
  {
    if src != [] {
      var init := src[..|src| - 1];
      var last := src[|src| - 1];
      assert UniqueKeys(init) by {
        forall i, j | 0 <= i < j < |init|
          ensures init[i].0 != init[j].0
        {
          assert init[i] == src[i] && init[j] == src[j];
        }
      }
      PutAllIntoEmpty(init);
      assert last.0 !in Keys(init) by {
        forall i | 0 <= i < |init|
          ensures Keys(init)[i] != last.0
        {
          assert init[i] == src[i];
        }
      }
      PutNew(init, last.0, last.1);
      calc {
        PutAll([], src);
        Put(PutAll([], init), last.0, last.1);
        Put(init, last.0, last.1);
        init + [last];
        { SplitLast(src); }
        src;
      }
    }
  }

  /** Copying a dictionary's entries into one that already holds them all
      changes nothing. */
  lemma {:induction false} PutAllAlreadyThere<V>(acc: Dict<V>, src: Dict<V>)
    requires forall i :: 0 <= i < |src| ==> Get(acc, src[i].0) == Some(src[i].1)
    ensures PutAll(acc, src) == acc
    decreases |src|
  {
    if src != [] {
      var init := src[..|src| - 1];
      var last := src[|src| - 1];
      assert forall i :: 0 <= i < |init| ==> init[i] == src[i];
      PutAllAlreadyThere(acc, init);
      PutSame(acc, last.0, last.1);
    }
  }

  /** The nested loop `for entry in src: for key in src.keys(): acc[key] = src[key]`:
      the whole copy repeated `n` times. */
  function Reapply<V>(acc: Dict<V>, src: Dict<V>, n: nat): Dict<V>
    decreases n
  {
    if n == 0 then acc else Reapply(PutAll(acc, src), src, n - 1)
  }

  /** The nested copy loop into an empty dictionary yields exactly the source,
      however many times the inner copy runs (and nothing when it never runs). */
  lemma {:induction false} ReapplyCopies<V>(src: Dict<V>, n: nat)
    requires UniqueKeys(src)
    ensures Reapply([], src, n) == if n == 0 then [] else src
  {
    if n > 0 {
      PutAllIntoEmpty(src);
      ReapplyFixed(src, n - 1);
    }
  }

  /** Copying a dictionary with unique keys into itself changes nothing. */
  lemma PutAllSelf<V>(src: Dict<V>)
    requires UniqueKeys(src)
    ensures PutAll(src, src) == src
  {
    forall i | 0 <= i < |src|
      ensures Get(src, src[i].0) == Some(src[i].1)
    {
      GetUnique(src, i);
    }
    PutAllAlreadyThere(src, src);
  }

  /** Once the copy has been made, repeating it changes nothing. */
  lemma {:induction false} ReapplyFixed<V>(src: Dict<V>, n: nat)
    requires UniqueKeys(src)
    ensures Reapply(src, src, n) == src
  {
    if n > 0 {
      PutAllSelf(src);
      ReapplyFixed(src, n - 1);
    }
  }

  /** Overwriting the first occurrence of a key replaces that entry's value. */
  lemma {:induction false} PutAt<V>(d: Dict<V>, i: nat, v: V)
    requires i < |d|
    requires d[i].0 !in Keys(d[..i])
    ensures Put(d, d[i].0, v) == d[i := (d[i].0, v)]
  {
    var k := d[i].0;
    if i == 0 {
      UpdateHead(d, (k, v));
    } else {
      assert d[0].0 != k by { assert Keys(d[..i])[0] == d[0].0; }
      assert d[1..][i - 1] == d[i];
      assert k !in Keys(d[1..][..i - 1]) by {
        assert d[1..][..i - 1] == d[..i][1..];
        assert Keys(d[..i]) == [d[0].0] + Keys(d[1..][..i - 1]);
      }
      PutAt(d[1..], i - 1, v);
      calc {
        Put(d, k, v);
        [d[0]] + Put(d[1..], k, v);
        [d[0]] + d[1..][i - 1 := (k, v)];
        { UpdateTail(d, i, (k, v)); }
        d[i := (k, v)];
      }
    }
  }

  /** The lookup finds the first entry holding the key. */
  lemma {:induction false} GetFirst<V>(d: Dict<V>, i: nat)
    requires i < |d|
    requires forall j :: 0 <= j < i ==> d[j].0 != d[i].0
    ensures Get(d, d[i].0) == Some(d[i].1)
  {
    if i > 0 {
      GetFirst(d[1..], i - 1);
    }
  }
}

=== FILE: discovery.dfy ===
/** `Bridge.discover`: probe the hosts of the local subnet in order and take
    the first whose HTTPS root page names the bridge product. */
module Discovery {
  import opened Results
  import opened Errors
  import opened Text
  import opened JsonData
  import opened HueApi

  /** The product string a bridge's landing page contains (compared lower-cased). */
  const Signature := "hue personal wireless lighting"

  /** The probe for one host: a plain GET of its HTTPS root. */
  function ProbeRequest(host: string): HttpRequest {
    HttpRequest("GET", "https://" + host, None, [])
  }

  /** A reply that identifies a bridge: status 200 or 403 and the signature in
      the lower-cased body. */
  predicate Announces(reply: HttpReply) {
    reply.Reply? && (reply.status == 200 || reply.status == 403) && Contains(Lower(reply.text), Signature)
  }

  /** The three pool exceptions the probe loop swallows. */
  predicate Swallowed(reply: HttpReply) {
    reply.Raised? && (reply.failure == MaxRetry || reply.failure == NewConnection || reply.failure == Tls)
  }

  /** The loop moves past this host: no bridge there, and no exception that escapes. */
  predicate Passes(reply: HttpReply) {
    !Announces(reply) && (reply.Raised? ==> Swallowed(reply))
  }

  /** How the loop treats one reply: an announcing reply stops it with the
      host, one of the three pool exceptions is passed over like any reply
      with another status, and every other exception stops it. */
  lemma ReplyClasses(reply: HttpReply)
    ensures Announces(reply) ==> !Passes(reply) && !Swallowed(reply)
    ensures Swallowed(reply) ==> Passes(reply)
    ensures reply.Reply? && reply.status != 200 && reply.status != 403 ==> Passes(reply)
    ensures reply.Raised? ==> (Passes(reply) <==> Swallowed(reply))
  {
  }

  /** The product string is found in any letter case, anywhere in the page. */
  lemma AnnouncesInAnyCase(status: int, before: string, product: string, after: string, decoded: Option<Json>)
    requires status == 200 || status == 403
    requires Lower(product) == Signature
    ensures Announces(Reply(status, before + product + after, decoded))
  {
    var text := before + product + after;
    var lowered := Lower(text);
    assert lowered[|before|..|before| + |product|] == Lower(product) by {
      forall i | 0 <= i < |product|
        ensures lowered[|before| + i] == Lower(product)[i]
      {
        assert text[|before| + i] == product[i];
      }
    }
    assert OccursAt(lowered, Signature, |before|);
  }

  /** The outcome of probing `hosts` in order: the first announcing host, `None`
      when every host passes, or the first exception that is not swallowed. */
  function FirstBridge(hosts: seq<string>, net: Network): (r: Result<Option<string>, Error>)
    ensures r.Success? && r.value.Some? ==> r.value.value in hosts
    ensures r.Failure? ==> r.error.Transport? && r.error.failure !in {MaxRetry, NewConnection, Tls}
    decreases |hosts|
  {
    if hosts == [] then Success(None)
    else
      var reply := net(ProbeRequest(hosts[0]));
      if Announces(reply) then Success(Some(hosts[0]))
      else if reply.Raised? && !Swallowed(reply) then Failure(Transport(reply.failure))
      else FirstBridge(hosts[1..], net)
  }

  /** The position of the first host that does not pass, or the number of
      hosts when all pass. */
  function FirstStop(hosts: seq<string>, net: Network): (k: nat)
    ensures k <= |hosts|
    ensures forall j :: 0 <= j < k ==> Passes(net(ProbeRequest(hosts[j])))
    ensures k < |hosts| ==> !Passes(net(ProbeRequest(hosts[k])))
    decreases |hosts|
  {
    if hosts == [] || !Passes(net(ProbeRequest(hosts[0]))) then 0
    else
      var k := 1 + FirstStop(hosts[1..], net);
      assert forall j :: 1 <= j < k ==> hosts[j] == hosts[1..][j - 1];
      k
  }

  /** What the loop makes of the reply that stops it: the host when the reply
      announces a bridge, the exception otherwise. */
  function StopVerdict(reply: HttpReply, host: string): (r: Result<Option<string>, Error>)
    requires !Passes(reply)
    ensures r == Success(Some(host)) <==> Announces(reply)
    ensures r.Failure? <==> reply.Raised? && !Swallowed(reply)
  {
    if Announces(reply) then Success(Some(host)) else Failure(Transport(reply.failure))
  }

  /** Probing ends at the first host that does not pass: its verdict is the
      outcome, and with no such host the outcome is `None`. */
  lemma {:induction false} FirstBridgeStops(hosts: seq<string>, net: Network)
    ensures var k := FirstStop(hosts, net);
            FirstBridge(hosts, net)
            == if k == |hosts| then Success(None) else StopVerdict(net(ProbeRequest(hosts[k])), hosts[k])
    decreases |hosts|
  {
    if hosts != [] && Passes(net(ProbeRequest(hosts[0]))) {
      FirstBridgeStops(hosts[1..], net);
      var k := FirstStop(hosts[1..], net);
      if k < |hosts[1..]| {
        assert hosts[1..][k] == hosts[k + 1];
      }
    }
  }

  /** No bridge and no error exactly when every host passes. */
  lemma NoBridgeIffAllPass(hosts: seq<string>, net: Network)
    ensures FirstBridge(hosts, net) == Success(None)
        <==> forall i :: 0 <= i < |hosts| ==> Passes(net(ProbeRequest(hosts[i])))
  {
    FirstBridgeStops(hosts, net);
    var k := FirstStop(hosts, net);
    if k < |hosts| {
      assert !Passes(net(ProbeRequest(hosts[k])));
    }
  }

  /** `discover()` over the given host sequence. */
  method Discover(hosts: seq<string>, net: Network) returns (r: Result<Option<string>, Error>)
    ensures r == FirstBridge(hosts, net)
  {
    var i := 0;
    while i < |hosts|
      invariant 0 <= i <= |hosts|
      invariant FirstBridge(hosts, net) == FirstBridge(hosts[i..], net)
    {
      var reply := net(ProbeRequest(hosts[i]));
      if Announces(reply) {
        return Success(Some(hosts[i]));
      }
      if reply.Raised? && !Swallowed(reply) {
        return Failure(Transport(reply.failure));
      }
      assert hosts[i..][1..] == hosts[i + 1..];
      i := i + 1;
    }
    return Success(None);
  }

  /** A host that answers like a bridge is found when every host before it
      passes, whatever the hosts after it would answer. */
  lemma FoundHostIsFirst(hosts: seq<string>, net: Network, k: nat)
    requires k < |hosts| && Announces(net(ProbeRequest(hosts[k])))
    requires forall j :: 0 <= j < k ==> Passes(net(ProbeRequest(hosts[j])))
    ensures FirstBridge(hosts, net) == Success(Some(hosts[k]))
  {
    FirstBridgeStops(hosts, net);
    assert FirstStop(hosts, net) == k;
  }

  /** The address selection of the constructor: an explicit address wins,
      otherwise discovery decides (and may find none). */
  function ChooseAddress(explicit: Option<string>, hosts: seq<string>, net: Network): (r: Result<Option<string>, Error>)
    ensures IsSet(explicit) ==> r == Success(explicit)
    ensures !IsSet(explicit) ==> r == FirstBridge(hosts, net)
  {
    if IsSet(explicit) then Success(explicit) else FirstBridge(hosts, net)
  }
}

=== FILE: errors.dfy ===
/** The exceptions the client raises or lets through, as values. */
module Errors {
  import opened Results
  import opened JsonData

  /** Exceptions urllib3 raises when a request gets no HTTP answer. */
  datatype TransportFailure =
    | MaxRetry        // urllib3.exceptions.MaxRetryError
    | NewConnection   // urllib3.exceptions.NewConnectionError
    | Tls             // urllib3.exceptions.SSLError
    | OtherFailure    // any other exception raised by the pool

  datatype Error =
    | AddressNotSet                              // "Bridge address not set"
    | UnknownApiVersion(version: Json)           // "Unknown API version: ..."
    | HttpStatus(status: int, text: string)      // "Error <status> in request: <body>"
    | Transport(failure: TransportFailure)
    | BadJson                                    // json.loads rejects a 200 body
    | DataError                                  // KeyError, IndexError, TypeError or AttributeError on a payload
    | PairingRejected(errorType: Json, description: Json)  // "Error <type> retrieving token: <description>"
    | NotImplemented                             // NotImplementedError
    | SendMissingArguments                       // TypeError: send() called without method and endpoint

  /** A payload lookup that raises when the value is absent. */
  function Found<T>(o: Option<T>): (r: Result<T, Error>)
    ensures r.Success? <==> o.Some?
    ensures r.Success? ==> r.value == o.value
    ensures r.Failure? ==> r.error == DataError
  {
    match o
    case Some(v) => Success(v)
    case None => Failure(DataError)
  }
}

=== FILE: hueapi.dfy ===
/** The transport: `HueApiRequest.send` builds the URL for the selected API
    version, attaches the application key, performs one request over a given
    network, and maps the reply's status to a response or an error. */
module HueApi {
  import opened Results
  import opened Dicts
  import opened JsonData
  import opened Errors

  /** The transport's configuration: bridge address, application key, default version. */
  datatype ApiRequest = ApiRequest(address: Option<string>, username: Option<string>, apiVersion: Json)

  /** `HueApiResponse`: the status and the decoded body. */
  datatype ApiResponse = ApiResponse(status: int, data: Json)

  /** One HTTP request as handed to the connection pool. */
  datatype HttpRequest = HttpRequest(verb: string, url: string, body: Option<string>, headers: Dict<string>)

  /** What the pool yields: a reply with status, raw body text and the result
      of decoding that text as JSON (`None` when it is not JSON), or an exception. */
  datatype HttpReply =
    | Reply(status: int, text: string, decoded: Option<Json>)
    | Raised(failure: TransportFailure)

  /** The bridge and the LAN as seen by the client: the reply each request gets. */
  type Network = HttpRequest -> HttpReply

  const KeyHeader := "hue-application-key"

  /** A Python string attribute that is neither `None` nor empty. */
  predicate IsSet(s: Option<string>) {
    s.Some? && s.value != ""
  }

  /** `HueApiRequest(address, pool, username)` with the default version 2. */
  function NewApiRequest(address: Option<string>, username: Option<string>): (api: ApiRequest)
    ensures api.address == address && api.username == username
    ensures api.apiVersion == Num(2)
  {
    ApiRequest(address, username, Num(2))
  }

  /** `api_version == 2` */
  predicate IsVersionTwo(v: Json) {
    v == Num(2)
  }

  /** `api_version == 1`; Python also takes `True` as equal to 1. */
  predicate IsVersionOne(v: Json) {
    v == Num(1) || v == Bool(true)
  }

  /** The version a call uses: its own argument unless falsy, else the instance's. */
  function EffectiveVersion(api: ApiRequest, version: Json): (v: Json)
    ensures Truthy(version) ==> v == version
    ensures !Truthy(version) ==> v == api.apiVersion
  {
    if Truthy(version) then version else api.apiVersion
  }

  /** The headers after `if self.username: headers[KeyHeader] = self.username`. */
  function WithKey(api: ApiRequest, headers: Dict<string>): (h: Dict<string>)
    ensures IsSet(api.username) ==> Get(h, KeyHeader) == Some(api.username.value)
    ensures !IsSet(api.username) ==> h == headers
    ensures forall k :: k != KeyHeader ==> Get(h, k) == Get(headers, k)
  {
    if IsSet(api.username) then Put(headers, KeyHeader, api.username.value) else headers
  }

  /** Everything `send` does before touching the network: the address check,
      version selection, URL and headers. A failure here means no request is made. */
  function Prepare(api: ApiRequest, verb: string, endpoint: string, body: Option<string>,
                   headers: Dict<string>, version: Json): (r: Result<HttpRequest, Error>)
    ensures !IsSet(api.address) ==> r == Failure(AddressNotSet)
    ensures IsSet(api.address) ==>
              (r.Success? <==> IsVersionTwo(EffectiveVersion(api, version)) || IsVersionOne(EffectiveVersion(api, version)))
    ensures r.Failure? && IsSet(api.address) ==> r.error == UnknownApiVersion(EffectiveVersion(api, version))
    ensures r.Success? ==> r.value.verb == verb && r.value.body == body
    ensures r.Success? ==> r.value.headers == WithKey(api, headers)
    ensures r.Success? && IsVersionTwo(EffectiveVersion(api, version)) ==>
              r.value.url == "https://" + api.address.value + "/clip/v2/" + endpoint
    ensures r.Success? && IsVersionOne(EffectiveVersion(api, version)) ==>
              r.value.url == "https://" + api.address.value + "/api/" + endpoint
  {
    var v := EffectiveVersion(api, version);
    if !IsSet(api.address) then Failure(AddressNotSet)
    else if IsVersionTwo(v) then
      Success(HttpRequest(verb, "https://" + api.address.value + "/clip/v2/" + endpoint, body, WithKey(api, headers)))
    else if IsVersionOne(v) then
      Success(HttpRequest(verb, "https://" + api.address.value + "/api/" + endpoint, body, WithKey(api, headers)))
    else Failure(UnknownApiVersion(v))
  }

  /** The status check after the request: only 200 yields a response, whose
      data is the decoded body. */
  function Complete(reply: HttpReply): (r: Result<ApiResponse, Error>)
    ensures r.Success? <==> reply.Reply? && reply.status == 200 && reply.decoded.Some?
    ensures r.Success? ==> r.value == ApiResponse(200, reply.decoded.value)
    ensures reply.Reply? && reply.status != 200 ==> r == Failure(HttpStatus(reply.status, reply.text))
    ensures reply.Reply? && reply.status == 200 && reply.decoded.None? ==> r == Failure(BadJson)
    ensures reply.Raised? ==> r == Failure(Transport(reply.failure))
  {
    match reply
    case Raised(f) => Failure(Transport(f))
    case Reply(status, text, decoded) =>
      if status != 200 then Failure(HttpStatus(status, text))
      else if decoded.None? then Failure(BadJson)
      else Success(ApiResponse(200, decoded.value))
  }

  /** `HueApiRequest.send(method, endpoint, body, headers, api_version)`. */
  function Send(api: ApiRequest, verb: string, endpoint: string, body: Option<string>,
                headers: Dict<string>, version: Json, net: Network): (r: Result<ApiResponse, Error>)
    ensures Prepare(api, verb, endpoint, body, headers, version).Failure? ==>
              r == Failure(Prepare(api, verb, endpoint, body, headers, version).error)
    ensures Prepare(api, verb, endpoint, body, headers, version).Success? ==>
              r == Complete(net(Prepare(api, verb, endpoint, body, headers, version).value))
    ensures r.Success? ==> r.value.status == 200
  {
    var request :- Prepare(api, verb, endpoint, body, headers, version);
    Complete(net(request))
  }

  /** Without a bridge address every call fails the same way, whatever the
      network would have answered: no request is made. */
  lemma NoRequestWithoutAddress(api: ApiRequest, verb: string, endpoint: string, body: Option<string>,
                                headers: Dict<string>, version: Json, net1: Network, net2: Network)
    requires !IsSet(api.address)
    ensures Send(api, verb, endpoint, body, headers, version, net1) == Failure(AddressNotSet)
    ensures Send(api, verb, endpoint, body, headers, version, net1)
         == Send(api, verb, endpoint, body, headers, version, net2)
  {
  }

  /** A call that gives no version on a default transport goes to the version 2
      path, and the reply's status decides the outcome. */
  lemma DefaultVersionIsTwo(address: string, username: Option<string>, verb: string, endpoint: string, net: Network)
    requires address != ""
    ensures var req := HttpRequest(verb, "https://" + address + "/clip/v2/" + endpoint, None,
                                   WithKey(NewApiRequest(Some(address), username), []));
            Send(NewApiRequest(Some(address), username), verb, endpoint, None, [], Null, net) == Complete(net(req))
  {
  }

  /** The version passed as the string `'1'` is neither the integer 1 nor 2,
      so such a call always fails once the address is set. */
  lemma StringVersionRejected(api: ApiRequest, verb: string, endpoint: string, body: Option<string>,
                              headers: Dict<string>, net: Network)
    requires IsSet(api.address)
    ensures Send(api, verb, endpoint, body, headers, Str("1"), net) == Failure(UnknownApiVersion(Str("1")))
  {
  }
}

=== FILE: huebridge.dfy ===
/** `HueBridge`: the bridge as a device. It keeps the base class's `rtype`
    of `None`, which no service type equals. */
module HueBridge {
  import opened Results
  import opened Dicts
  import opened JsonData
  import opened Errors
  import opened HueDevice

  /** The `HueBridge(id, id_v1, type, send)` constructor. */
  function NewHueBridge(id: Option<string>, idV1: Option<string>, deviceType: Option<string>): (d: Device)
    ensures d.variant == Bridge
    ensures d.FriendlyType() == "bridge" && d.ResourceType() == None
    ensures d.id == id && d.idV1 == idV1 && d.deviceType == deviceType
    ensures d.metadata == [] && d.productData == [] && d.services == [] && d.endpoints.None?
  {
    NewDevice(Bridge, id, idV1, deviceType)
  }

  /** Whatever its services, a bridge's default endpoint list is empty in
      every API version, and `refresh_state` fetches nothing and stores an
      empty map. */
  lemma BridgeHasNoEndpoints(d: Device, version: Json, fetch: Fetch)
    requires d.variant == Bridge
    ensures GetEndpoints(d, None, version) == Success([])
    ensures RefreshState(d, fetch) == Success(d.(endpoints := Some([])))
  {
    NoMatchNoEndpoints(d, None, version);
    NoMatchNoEndpoints(d, None, Num(2));
  }
}

=== FILE: huedevice.dfy ===
/** `HueDevice` and its specialisations as one tagged record: the variant
    fixes the friendly type and the resource type the device queries. */
module HueDevice {
  import opened Results
  import opened Dicts
  import opened JsonData
  import opened Errors
  import opened HueApi

  /** The classes HueDevice, HueLight, HueSwitch and HueBridge. */
  datatype Variant = Generic | Light | Switch | Bridge {
    /** `friendly_type` as the constructor of each class sets it. */
    function FriendlyType(): string {
      match this
      case Generic => "generic_device"
      case Light => "light"
      case Switch => "switch"
      case Bridge => "bridge"
    }

    /** `rtype`: set by HueLight and HueSwitch, left `None` by the others. */
    function ResourceType(): Option<string> {
      match this
      case Light => Some("light")
      case Switch => Some("button")
      case Generic => None
      case Bridge => None
    }
  }

  /** A device's attributes. `endpoints` is `None` until `refresh_state`
      first assigns it; `identify` is always `None` and not kept. */
  datatype Device = Device(
    variant: Variant,
    id: Option<string>,
    idV1: Option<string>,
    deviceType: Option<string>,
    productData: Dict<Json>,
    metadata: Dict<Json>,
    services: Dict<string>,
    endpoints: Option<Dict<Json>>)
  {
    function FriendlyType(): string {
      variant.FriendlyType()
    }

    function ResourceType(): Option<string> {
      variant.ResourceType()
    }
  }

  /** The GET a device issues for one endpoint through its `send` callback:
      the decoded data, or the exception `send` raised. */
  type Fetch = string -> Result<Json, Error>

  /** The constructor of the variant's class. */
  function NewDevice(variant: Variant, id: Option<string>, idV1: Option<string>, deviceType: Option<string>): (d: Device)
    ensures d.variant == variant && d.id == id && d.idV1 == idV1 && d.deviceType == deviceType
    ensures d.metadata == [] && d.productData == [] && d.services == []
    ensures d.endpoints.None?
  {
    Device(variant, id, idV1, deviceType, [], [], [], None)
  }

  /** `add_metadata(key, value)` */
  function AddMetadata(d: Device, key: string, value: Json): (r: Device)
    ensures Get(r.metadata, key) == Some(value)
    ensures forall k :: k != key ==> Get(r.metadata, k) == Get(d.metadata, k)
    ensures key in Keys(d.metadata) ==> Keys(r.metadata) == Keys(d.metadata)
    ensures r == d.(metadata := r.metadata)
  {
    d.(metadata := Put(d.metadata, key, value))
  }

  /** `add_product_data(key, value)` */
  function AddProductData(d: Device, key: string, value: Json): (r: Device)
    ensures Get(r.productData, key) == Some(value)
    ensures forall k :: k != key ==> Get(r.productData, k) == Get(d.productData, k)
    ensures key in Keys(d.productData) ==> Keys(r.productData) == Keys(d.productData)
    ensures r == d.(productData := r.productData)
  {
    d.(productData := Put(d.productData, key, value))
  }

  /** `add_service(rid, type)` */
  function AddService(d: Device, rid: string, rtype: string): (r: Device)
    ensures Get(r.services, rid) == Some(rtype)
    ensures forall k :: k != rid ==> Get(r.services, k) == Get(d.services, k)
    ensures rid in Keys(d.services) ==> Keys(r.services) == Keys(d.services)
    ensures rid !in Keys(d.services) ==> Keys(r.services) == Keys(d.services) + [rid]
    ensures r == d.(services := r.services)
  {
    d.(services := Put(d.services, rid, rtype))
  }

  /** `get_services()`: the service types in insertion order. */
  function GetServices(d: Device): (r: seq<string>)
    ensures |r| == |d.services|
    ensures forall i :: 0 <= i < |r| ==> r[i] == d.services[i].1
  {
    Values(d.services)
  }

  /** Adding a new service appends its type to `get_services()`. */
  lemma GetServicesAfterAddNew(d: Device, rid: string, rtype: string)
    requires rid !in Keys(d.services)
    ensures GetServices(AddService(d, rid, rtype)) == GetServices(d) + [rtype]
  {
    PutNew(d.services, rid, rtype);
  }

  /** Overwriting the service at position `i` replaces its type where it stands. */
  lemma GetServicesAfterOverwrite(d: Device, i: nat, rtype: string)
    requires i < |d.services|
    requires d.services[i].0 !in Keys(d.services[..i])
    ensures GetServices(AddService(d, d.services[i].0, rtype)) == GetServices(d)[i := rtype]
  {
    PutAt(d.services, i, rtype);
  }

  /** `f'/resource/{rtype}/{rid}'` */
  function ResourcePath(rtype: string, rid: string): string {
    "/resource/" + rtype + "/" + rid
  }

  /** Different service ids of one type give different paths. */
  lemma ResourcePathInjective(rtype: string, a: string, b: string)
    requires ResourcePath(rtype, a) == ResourcePath(rtype, b)
    ensures a == b
  {
    var n := |"/resource/" + rtype + "/"|;
    assert a == ResourcePath(rtype, a)[n..];
    assert b == ResourcePath(rtype, b)[n..];
  }

  /** The service `services[i]` has the type `t` asked for. */
  predicate Matches(services: Dict<string>, t: Option<string>, i: int)
    requires 0 <= i < |services|
  {
    Some(services[i].1) == t
  }

  /** Path `p` is the endpoint of some service of type `t`. */
  ghost predicate Yields(services: Dict<string>, t: Option<string>, p: string) {
    exists i :: 0 <= i < |services| && Matches(services, t, i) && p == ResourcePath(services[i].1, services[i].0)
  }

  lemma YieldsCons(services: Dict<string>, t: Option<string>, p: string)
    requires services != []
    ensures Yields(services, t, p) <==>
              (Matches(services, t, 0) && p == ResourcePath(services[0].1, services[0].0)) || Yields(services[1..], t, p)
  {
    if Yields(services, t, p) {
      var i :| 0 <= i < |services| && Matches(services, t, i) && p == ResourcePath(services[i].1, services[i].0);
      if i > 0 {
        assert Matches(services[1..], t, i - 1);
      }
    }
    if Yields(services[1..], t, p) {
      var i :| 0 <= i < |services[1..]| && Matches(services[1..], t, i) && p == ResourcePath(services[1..][i].1, services[1..][i].0);
      assert Matches(services, t, i + 1);
    }
  }

  /** The loop of `get_endpoints` once the type `t` is fixed. */
  function EndpointsFor(services: Dict<string>, t: Option<string>, version: Json): (r: Result<seq<string>, Error>)
    ensures r.Failure? <==> !IsVersionTwo(version) && exists i :: 0 <= i < |services| && Matches(services, t, i)
    ensures r.Failure? ==> r.error == NotImplemented
    ensures r.Success? ==> forall p :: p in r.value <==> Yields(services, t, p)
    ensures r.Success? ==> |r.value| <= |services|
    ensures (forall i :: 0 <= i < |services| ==> !Matches(services, t, i)) ==> r == Success([])
  {
    if services == [] then Success([])
    else
      var rest := EndpointsFor(services[1..], t, version);
      assert forall i :: 1 <= i < |services| ==> (Matches(services, t, i) <==> Matches(services[1..], t, i - 1));
      assert forall p :: Yields(services, t, p) <==>
               (Matches(services, t, 0) && p == ResourcePath(services[0].1, services[0].0)) || Yields(services[1..], t, p) by {
        forall p ensures Yields(services, t, p) <==>
               (Matches(services, t, 0) && p == ResourcePath(services[0].1, services[0].0)) || Yields(services[1..], t, p)
        {
          YieldsCons(services, t, p);
        }
      }
      if Matches(services, t, 0) then
        if IsVersionTwo(version) then Success([ResourcePath(services[0].1, services[0].0)] + rest.value)
        else Failure(NotImplemented)
      else
        assert (exists i :: 0 <= i < |services| && Matches(services, t, i)) ==>
               (exists j :: 0 <= j < |services[1..]| && Matches(services[1..], t, j)) by {
          if exists i :: 0 <= i < |services| && Matches(services, t, i) {
            var i :| 0 <= i < |services| && Matches(services, t, i);
            assert Matches(services[1..], t, i - 1);
          }
        }
        assert (exists j :: 0 <= j < |services[1..]| && Matches(services[1..], t, j)) ==>
               (exists i :: 0 <= i < |services| && Matches(services, t, i)) by {
          if exists j :: 0 <= j < |services[1..]| && Matches(services[1..], t, j) {
            var j :| 0 <= j < |services[1..]| && Matches(services[1..], t, j);
            assert Matches(services, t, j + 1);
          }
        }
        rest
  }

  /** Endpoints keep the order of the services: the result over a
      concatenation is the concatenation of the results, and one service
      contributes its path exactly when its type matches. */
  lemma {:induction false} EndpointsAppend(a: Dict<string>, b: Dict<string>, t: Option<string>, version: Json)
    requires IsVersionTwo(version)
    ensures EndpointsFor(a + b, t, version).value == EndpointsFor(a, t, version).value + EndpointsFor(b, t, version).value
    ensures forall rid, rtype :: EndpointsFor([(rid, rtype)], t, version).value
                                == if Some(rtype) == t then [ResourcePath(rtype, rid)] else []
  {
    if a == [] {
      assert a + b == b;
    } else {
      assert (a + b)[1..] == a[1..] + b;
      assert Matches(a + b, t, 0) == Matches(a, t, 0);
      EndpointsAppend(a[1..], b, t, version);
    }
    forall rid, rtype
      ensures EndpointsFor([(rid, rtype)], t, version).value == if Some(rtype) == t then [ResourcePath(rtype, rid)] else []
    {
      assert [(rid, rtype)][1..] == [];
    }
  }

  predicate Distinct(s: seq<string>) {
    forall i, j :: 0 <= i < j < |s| ==> s[i] != s[j]
  }

  /** Services with distinct ids give distinct endpoints. */
  lemma {:induction false} EndpointsDistinct(services: Dict<string>, t: Option<string>, version: Json)
    requires UniqueKeys(services)
    requires IsVersionTwo(version)
    ensures Distinct(EndpointsFor(services, t, version).value)
  {
    if services != [] {
      var rest := EndpointsFor(services[1..], t, version).value;
      EndpointsDistinct(services[1..], t, version);
      if Matches(services, t, 0) {
        var p := ResourcePath(services[0].1, services[0].0);
        forall q | q in rest
          ensures q != p
        {
          assert Yields(services[1..], t, q);
          var i :| 0 <= i < |services[1..]| && Matches(services[1..], t, i) && q == ResourcePath(services[1..][i].1, services[1..][i].0);
          assert services[1..][i].1 == services[0].1;
          assert services[1..][i].0 != services[0].0 by {
            assert services[i + 1].0 != services[0].0;
          }
          if q == p {
            ResourcePathInjective(services[0].1, services[1..][i].0, services[0].0);
          }
        }
        var all := [p] + rest;
        assert EndpointsFor(services, t, version).value == all;
        forall i, j | 0 <= i < j < |all|
          ensures all[i] != all[j]
        {
          assert all[j] == rest[j - 1];
          if i > 0 {
            assert all[i] == rest[i - 1];
            assert rest[i - 1] != rest[j - 1];
          } else {
            assert rest[j - 1] in rest;
          }
        }
      } else {
        assert EndpointsFor(services, t, version).value == rest;
      }
    }
  }

  /** The type `get_endpoints` looks for: `rtype`, or the device's own when `rtype` is falsy. */
  function Effective(d: Device, rtype: Option<string>): Option<string> {
    if IsSet(rtype) then rtype else d.ResourceType()
  }

  /** `get_endpoints(rtype, api_version)`: a falsy `rtype` means the
      device's own resource type. */
  function GetEndpoints(d: Device, rtype: Option<string>, version: Json): (r: Result<seq<string>, Error>)
    ensures IsSet(rtype) ==> r == EndpointsFor(d.services, rtype, version)
    ensures !IsSet(rtype) ==> r == EndpointsFor(d.services, d.ResourceType(), version)
    ensures IsVersionTwo(version) ==> r.Success?
    ensures r.Success? ==> forall i :: 0 <= i < |d.services| ==>
              (Matches(d.services, Effective(d, rtype), i) ==> ResourcePath(d.services[i].1, d.services[i].0) in r.value)
  {
    var t := if IsSet(rtype) then rtype else d.ResourceType();
    var r := EndpointsFor(d.services, t, version);
    assert r.Success? ==> forall i :: 0 <= i < |d.services| && Matches(d.services, t, i) ==>
              Yields(d.services, t, ResourcePath(d.services[i].1, d.services[i].0));
    r
  }

  /** With no service of the requested type there are no endpoints, and no
      error whatever the version. */
  lemma NoMatchNoEndpoints(d: Device, rtype: Option<string>, version: Json)
    requires forall i :: 0 <= i < |d.services| ==> !Matches(d.services, Effective(d, rtype), i)
    ensures GetEndpoints(d, rtype, version) == Success([])
  {
    assert GetEndpoints(d, rtype, version) == EndpointsFor(d.services, Effective(d, rtype), version);
  }

  /** The loop of `refresh_state`, from the map built so far: one GET per
      endpoint, in order, each stored under its endpoint; the first failing
      GET aborts. */
  function FetchInto(acc: Dict<Json>, eps: seq<string>, fetch: Fetch): (r: Result<Dict<Json>, Error>)
    ensures r.Failure? ==> eps != []
    decreases |eps|
  {
    if eps == [] then Success(acc)
    else
      match fetch(eps[0])
      case Failure(e) => Failure(e)
      case Success(data) => FetchInto(Put(acc, eps[0], data), eps[1..], fetch)
  }

  /** Every endpoint's GET succeeds. */
  predicate AllSucceed(eps: seq<string>, fetch: Fetch) {
    forall i :: 0 <= i < |eps| ==> fetch(eps[i]).Success?
  }

  /** Every GET succeeds when the first does and so do all the others. */
  lemma AllSucceedCons(eps: seq<string>, fetch: Fetch)
    requires eps != []
    ensures AllSucceed(eps, fetch) <==> fetch(eps[0]).Success? && AllSucceed(eps[1..], fetch)
  {
    forall i | 1 <= i < |eps| ensures eps[i] == eps[1..][i - 1] { }
  }

  /** The loop completes exactly when every GET succeeds. */
  lemma {:induction false} FetchIntoSucceeds(acc: Dict<Json>, eps: seq<string>, fetch: Fetch)
    ensures FetchInto(acc, eps, fetch).Success? <==> AllSucceed(eps, fetch)
    decreases |eps|
  {
    if eps != [] {
      AllSucceedCons(eps, fetch);
      if fetch(eps[0]).Success? {
        var acc' := Put(acc, eps[0], fetch(eps[0]).value);
        assert FetchInto(acc, eps, fetch) == FetchInto(acc', eps[1..], fetch);
        FetchIntoSucceeds(acc', eps[1..], fetch);
      }
    }
  }

  /** The loop stops at the first endpoint whose GET fails, with its error. */
  lemma {:induction false} FetchIntoFailure(acc: Dict<Json>, eps: seq<string>, fetch: Fetch)
    requires FetchInto(acc, eps, fetch).Failure?
    ensures exists i :: 0 <= i < |eps| && fetch(eps[i]) == Failure(FetchInto(acc, eps, fetch).error)
                        && forall j :: 0 <= j < i ==> fetch(eps[j]).Success?
    decreases |eps|
  {
    var r := FetchInto(acc, eps, fetch);
    if fetch(eps[0]).Failure? {
      assert fetch(eps[0]) == Failure(r.error);
    } else {
      var rest := eps[1..];
      var acc' := Put(acc, eps[0], fetch(eps[0]).value);
      assert r == FetchInto(acc', rest, fetch);
      FetchIntoFailure(acc', rest, fetch);
      var i :| 0 <= i < |rest| && fetch(rest[i]) == Failure(r.error)
               && forall j :: 0 <= j < i ==> fetch(rest[j]).Success?;
      assert fetch(eps[i + 1]) == Failure(r.error);
      forall j | 0 <= j < i + 1
        ensures fetch(eps[j]).Success?
      {
        if j > 0 { assert eps[j] == rest[j - 1]; }
      }
    }
  }

  /** After the loop, the map's keys are the earlier keys and the endpoints. */
  lemma {:induction false} FetchIntoKeys(acc: Dict<Json>, eps: seq<string>, fetch: Fetch)
    requires FetchInto(acc, eps, fetch).Success?
    ensures forall p :: p in Keys(FetchInto(acc, eps, fetch).value) <==> p in Keys(acc) || p in eps
    decreases |eps|
  {
    if eps != [] {
      var acc' := Put(acc, eps[0], fetch(eps[0]).value);
      SplitFirst(eps);
      FetchIntoKeys(acc', eps[1..], fetch);
    }
  }

  /** After the loop, every endpoint holds the data of its GET. */
  lemma {:induction false} FetchIntoValues(acc: Dict<Json>, eps: seq<string>, fetch: Fetch)
    requires FetchInto(acc, eps, fetch).Success?
    ensures forall i :: 0 <= i < |eps| ==>
              fetch(eps[i]).Success? && Get(FetchInto(acc, eps, fetch).value, eps[i]) == Some(fetch(eps[i]).value)
    decreases |eps|
  {
    if eps != [] {
      var data := fetch(eps[0]).value;
      var acc' := Put(acc, eps[0], data);
      var rest := eps[1..];
      FetchIntoValues(acc', rest, fetch);
      var r := FetchInto(acc', rest, fetch).value;
      assert FetchInto(acc, eps, fetch).value == r;
      forall i | 0 <= i < |eps|
        ensures fetch(eps[i]).Success? && Get(r, eps[i]) == Some(fetch(eps[i]).value)
      {
        if i > 0 {
          assert eps[i] == rest[i - 1];
        } else if eps[0] in rest {
          var k :| 0 <= k < |rest| && rest[k] == eps[0];
        } else {
          FetchIntoUntouched(acc', rest, fetch, eps[0]);
        }
      }
    }
  }

  /** Keys the loop does not visit keep their earlier value. */
  lemma {:induction false} FetchIntoUntouched(acc: Dict<Json>, eps: seq<string>, fetch: Fetch, k: string)
    requires FetchInto(acc, eps, fetch).Success?
    requires k !in eps
    ensures Get(FetchInto(acc, eps, fetch).value, k) == Get(acc, k)
    decreases |eps|
  {
    if eps != [] {
      SplitFirst(eps);
      FetchIntoUntouched(Put(acc, eps[0], fetch(eps[0]).value), eps[1..], fetch, k);
    }
  }

  /** Distinct new endpoints are appended to the keys in visiting order. */
  lemma {:induction false} FetchIntoOrder(acc: Dict<Json>, eps: seq<string>, fetch: Fetch)
    requires FetchInto(acc, eps, fetch).Success?
    requires Distinct(eps)
    requires forall p :: p in eps ==> p !in Keys(acc)
    ensures Keys(FetchInto(acc, eps, fetch).value) == Keys(acc) + eps
    decreases |eps|
  {
    if eps != [] {
      var acc' := Put(acc, eps[0], fetch(eps[0]).value);
      var rest := eps[1..];
      assert Keys(acc') == Keys(acc) + [eps[0]];
      assert forall p :: p in rest ==> p !in Keys(acc') by {
        forall k | 0 <= k < |rest| ensures rest[k] != eps[0] && rest[k] in eps {
          assert rest[k] == eps[k + 1];
        }
      }
      assert Distinct(rest) by {
        forall i, j | 0 <= i < j < |rest| ensures rest[i] != rest[j] {
          assert rest[i] == eps[i + 1] && rest[j] == eps[j + 1];
        }
      }
      FetchIntoOrder(acc', rest, fetch);
      calc {
        Keys(FetchInto(acc, eps, fetch).value);
        Keys(FetchInto(acc', rest, fetch).value);
        (Keys(acc) + [eps[0]]) + rest;
        { Associative(Keys(acc), [eps[0]], rest); }
        Keys(acc) + ([eps[0]] + rest);
        { SplitFirst(eps); }
        Keys(acc) + eps;
      }
    }
  }

  /** `refresh_state` starts from an empty map: it completes exactly when
      every GET succeeds, and then maps exactly the endpoints, each to the
      data of its GET; otherwise it raises the error of one of the GETs. */
  function FetchAll(eps: seq<string>, fetch: Fetch): (r: Result<Dict<Json>, Error>)
    ensures r.Success? <==> AllSucceed(eps, fetch)
    ensures r.Success? ==> forall p :: p in Keys(r.value) <==> p in eps
    ensures r.Success? ==> forall i :: 0 <= i < |eps| ==> Get(r.value, eps[i]) == Some(fetch(eps[i]).value)
    ensures r.Failure? ==> exists i :: 0 <= i < |eps| && fetch(eps[i]) == Failure(r.error)
  {
    FetchIntoSucceeds([], eps, fetch);
    var r := FetchInto([], eps, fetch);
    if r.Success? then
      FetchIntoKeys([], eps, fetch);
      FetchIntoValues([], eps, fetch);
      r
    else
      FetchIntoFailure([], eps, fetch);
      r
  }

  /** `refresh_state()`: the endpoints map is replaced by a fresh one holding
      exactly the device's endpoints, each with the data its GET returned. */
  function RefreshState(d: Device, fetch: Fetch): (r: Result<Device, Error>)
    ensures r.Success? ==> r.value == d.(endpoints := r.value.endpoints) && r.value.endpoints.Some?
  {
    var eps := GetEndpoints(d, d.ResourceType(), Num(2)).value;
    match FetchAll(eps, fetch)
    case Failure(e) => Failure(e)
    case Success(fetched) => Success(d.(endpoints := Some(fetched)))
  }

  /** The refresh succeeds exactly when every endpoint's GET does, and
      otherwise raises the error of one of them. */
  lemma RefreshStateSucceeds(d: Device, fetch: Fetch)
    ensures var eps := GetEndpoints(d, None, Num(2)).value;
            RefreshState(d, fetch).Success? <==> forall p :: p in eps ==> fetch(p).Success?
    ensures var eps := GetEndpoints(d, None, Num(2)).value;
            RefreshState(d, fetch).Failure? ==> exists p :: p in eps && fetch(p) == Failure(RefreshState(d, fetch).error)
  {
    var eps := GetEndpoints(d, d.ResourceType(), Num(2)).value;
    FetchIntoSucceeds([], eps, fetch);
    if FetchAll(eps, fetch).Failure? {
      FetchIntoFailure([], eps, fetch);
    }
  }

  /** After a refresh the endpoints map holds exactly the device's endpoints,
      each with the data its GET returned, in visiting order when the
      service ids are unique. */
  lemma RefreshStateEndpoints(d: Device, fetch: Fetch)
    requires RefreshState(d, fetch).Success?
    ensures var eps := GetEndpoints(d, None, Num(2)).value;
            var fetched := RefreshState(d, fetch).value.endpoints.value;
            && (forall p :: p in Keys(fetched) <==> p in eps)
            && (forall p :: p in eps ==> fetch(p).Success? && Get(fetched, p) == Some(fetch(p).value))
            && (UniqueKeys(d.services) ==> Keys(fetched) == eps)
  {
    var eps := GetEndpoints(d, d.ResourceType(), Num(2)).value;
    FetchIntoKeys([], eps, fetch);
    FetchIntoValues([], eps, fetch);
    if UniqueKeys(d.services) {
      EndpointsDistinct(d.services, d.ResourceType(), Num(2));
      var empty: Dict<Json> := [];
      FetchIntoOrder(empty, eps, fetch);
      assert Keys(empty) + eps == eps;
    }
  }

  /** A value in the copy `get_properties()` returns. */
  datatype Attribute =
    | Text(text: Option<string>)
    | Entries(entries: Dict<Json>)
    | ServiceTypes(types: Dict<string>)
    | Unset

  /** The attributes every device constructor assigns, in assignment order
      (`send` omitted); `refresh_state` later adds `endpoints`. */
  const AttributeNames: seq<string> :=
    ["id", "id_v1", "type", "product_data", "metadata", "identify", "services", "friendly_type", "rtype"]

  /** The names of the attributes a device holds, in assignment order. */
  function AttributeNamesOf(d: Device): (names: seq<string>)
    ensures |names| == if d.endpoints.Some? then 10 else 9
    ensures forall i :: 0 <= i < 9 ==> names[i] == AttributeNames[i]
    ensures d.endpoints.Some? ==> names[9] == "endpoints"
  {
    AttributeNames + (if d.endpoints.Some? then ["endpoints"] else [])
  }

  /** The current value of the `i`-th attribute of `AttributeNamesOf(d)`. */
  function AttributeAt(d: Device, i: nat): Attribute
    requires i < |AttributeNamesOf(d)|
  {
    match i
    case 0 => Text(d.id)
    case 1 => Text(d.idV1)
    case 2 => Text(d.deviceType)
    case 3 => Entries(d.productData)
    case 4 => Entries(d.metadata)
    case 5 => Unset
    case 6 => ServiceTypes(d.services)
    case 7 => Text(Some(d.FriendlyType()))
    case 8 => Text(d.ResourceType())
    case _ => Entries(d.endpoints.value)
  }

  /** `get_properties()`: the instance attributes in assignment order, without
      the `send` callback. `endpoints` appears once `refresh_state` has run. */
  function Properties(d: Device): (p: Dict<Attribute>)
    ensures Keys(p) == AttributeNamesOf(d)
    ensures "send" !in Keys(p)
    ensures forall i :: 0 <= i < |p| ==> p[i].1 == AttributeAt(d, i)
  {
    var names := AttributeNamesOf(d);
    assert "send" !in names;
    seq(|names|, i requires 0 <= i < |names| => (names[i], AttributeAt(d, i)))
  }

  /** The class whose constructor sets this friendly type. */
  function VariantNamed(friendlyType: string): (v: Option<Variant>)
    ensures v.Some? ==> v.value.FriendlyType() == friendlyType
  {
    if friendlyType == "generic_device" then Some(Generic)
    else if friendlyType == "light" then Some(Light)
    else if friendlyType == "switch" then Some(Switch)
    else if friendlyType == "bridge" then Some(Bridge)
    else None
  }

  /** Every class is recovered from the friendly type its constructor sets. */
  lemma VariantNamedInverse(v: Variant)
    ensures VariantNamed(v.FriendlyType()) == Some(v)
  {
    match v
    case Generic =>
    case Light =>
    case Switch =>
    case Bridge =>
  }

  function TextAt(p: Dict<Attribute>, k: string): Option<Option<string>> {
    var a :- Get(p, k);
    if a.Text? then Some(a.text) else None
  }

  function EntriesAt(p: Dict<Attribute>, k: string): Option<Dict<Json>> {
    var a :- Get(p, k);
    if a.Entries? then Some(a.entries) else None
  }

  function ServiceTypesAt(p: Dict<Attribute>, k: string): Option<Dict<string>> {
    var a :- Get(p, k);
    if a.ServiceTypes? then Some(a.types) else None
  }

  /** Rebuilds a device from a properties copy, when the copy is complete. */
  function FromProperties(p: Dict<Attribute>): Option<Device> {
    var id :- TextAt(p, "id");
    var idV1 :- TextAt(p, "id_v1");
    var deviceType :- TextAt(p, "type");
    var productData :- EntriesAt(p, "product_data");
    var metadata :- EntriesAt(p, "metadata");
    var services :- ServiceTypesAt(p, "services");
    var friendly :- TextAt(p, "friendly_type");
    var name :- friendly;
    var variant :- VariantNamed(name);
    Some(Device(variant, id, idV1, deviceType, productData, metadata, services, EntriesAt(p, "endpoints")))
  }

  /** Every attribute name, `endpoints` included, is told apart from the
      others by its length and first letter. */
  lemma AllNamesDistinct()
    ensures Distinct(AttributeNames + ["endpoints"])
    ensures Distinct(AttributeNames)
    ensures "endpoints" !in AttributeNames
  {
    var names := AttributeNames + ["endpoints"];
    var tags := seq(|names|, i requires 0 <= i < |names| => (|names[i]|, names[i][0]));
    assert tags == [(2, 'i'), (5, 'i'), (4, 't'), (12, 'p'), (8, 'm'), (8, 'i'), (8, 's'), (13, 'f'), (5, 'r'), (9, 'e')];
    assert forall i, j :: 0 <= i < j < |names| ==> tags[i] != tags[j];
    assert forall i :: 0 <= i < |AttributeNames| ==> AttributeNames[i] == names[i];
  }

  /** A copy holding each of the device's attributes under its name rebuilds
      exactly that device. */
  lemma FromPropertiesRebuilds(p: Dict<Attribute>, d: Device)
    requires TextAt(p, "id") == Some(d.id)
    requires TextAt(p, "id_v1") == Some(d.idV1)
    requires TextAt(p, "type") == Some(d.deviceType)
    requires EntriesAt(p, "product_data") == Some(d.productData)
    requires EntriesAt(p, "metadata") == Some(d.metadata)
    requires ServiceTypesAt(p, "services") == Some(d.services)
    requires TextAt(p, "friendly_type") == Some(Some(d.FriendlyType()))
    requires EntriesAt(p, "endpoints") == d.endpoints
    ensures FromProperties(p) == Some(d)
  {
    VariantNamedInverse(d.variant);
  }

  /** Each attribute of the copy is found under its own name. */
  lemma PropertyLookup(d: Device, i: nat)
    requires i < |AttributeNamesOf(d)|
    ensures Get(Properties(d), AttributeNamesOf(d)[i]) == Some(AttributeAt(d, i))
  {
    var p := Properties(d);
    AllNamesDistinct();
    assert Distinct(Keys(p));
    GetFirst(p, i);
  }

  /** The attribute names, position by position. */
  lemma AttributeNamesSpelled()
    ensures AttributeNames[0] == "id" && AttributeNames[1] == "id_v1" && AttributeNames[2] == "type"
    ensures AttributeNames[3] == "product_data" && AttributeNames[4] == "metadata"
    ensures AttributeNames[6] == "services" && AttributeNames[7] == "friendly_type"
  {
  }

  /** A text attribute reads back through `TextAt`. */
  lemma TextProperty(d: Device, i: nat)
    requires i < 9 && AttributeAt(d, i).Text?
    ensures TextAt(Properties(d), AttributeNames[i]) == Some(AttributeAt(d, i).text)
  {
    PropertyLookup(d, i);
  }

  /** A dictionary attribute reads back through `EntriesAt`. */
  lemma EntriesProperty(d: Device, i: nat)
    requires i < 9 && AttributeAt(d, i).Entries?
    ensures EntriesAt(Properties(d), AttributeNames[i]) == Some(AttributeAt(d, i).entries)
  {
    PropertyLookup(d, i);
  }

  /** The copy holds the device's identifiers and friendly type as text. */
  lemma PropertiesTextFields(d: Device)
    ensures TextAt(Properties(d), "id") == Some(d.id)
    ensures TextAt(Properties(d), "id_v1") == Some(d.idV1)
    ensures TextAt(Properties(d), "type") == Some(d.deviceType)
    ensures TextAt(Properties(d), "friendly_type") == Some(Some(d.FriendlyType()))
  {
    AttributeNamesSpelled();
    TextProperty(d, 0);
    TextProperty(d, 1);
    TextProperty(d, 2);
    TextProperty(d, 7);
  }

  /** The copy holds the device's dictionaries unchanged. */
  lemma PropertiesEntryFields(d: Device)
    ensures EntriesAt(Properties(d), "product_data") == Some(d.productData)
    ensures EntriesAt(Properties(d), "metadata") == Some(d.metadata)
    ensures ServiceTypesAt(Properties(d), "services") == Some(d.services)
  {
    AttributeNamesSpelled();
    EntriesProperty(d, 3);
    EntriesProperty(d, 4);
    PropertyLookup(d, 6);
  }

  /** The copy holds the endpoints map exactly when the device has one. */
  lemma PropertiesEndpoints(d: Device)
    ensures EntriesAt(Properties(d), "endpoints") == d.endpoints
  {
    if d.endpoints.Some? {
      PropertyLookup(d, 9);
    } else {
      assert "endpoints" !in AttributeNames by { AllNamesDistinct(); }
    }
  }

  /** The properties copy loses nothing but the callback: the device can be
      rebuilt from it. */
  lemma PropertiesRoundTrip(d: Device)
    ensures FromProperties(Properties(d)) == Some(d)
  {
    PropertiesTextFields(d);
    PropertiesEntryFields(d);
    PropertiesEndpoints(d);
    FromPropertiesRebuilds(Properties(d), d);
  }
}

=== FILE: huelight.dfy ===
/** `HueLight`: reading the on/off state from the refreshed endpoints, and
    `turn_on`, whose request is never actually issued (see `SetOnOff`). */
module HueLight {
  import opened Results
  import opened Dicts
  import opened JsonData
  import opened Errors
  import opened Text
  import opened HueApi
  import opened HueDevice

  /** The `HueLight(id, id_v1, type, send)` constructor. */
  function NewLight(id: Option<string>, idV1: Option<string>, deviceType: Option<string>): (d: Device)
    ensures d.FriendlyType() == "light" && d.ResourceType() == Some("light")
    ensures d == NewDevice(Light, id, idV1, deviceType)
  {
    NewDevice(Light, id, idV1, deviceType)
  }

  /** `data['data'][0]['on']['on']` on the payload of a light's endpoint. */
  function OnState(data: Json): (r: Result<Json, Error>)
    ensures r.Failure? ==> r.error == DataError
    ensures r.Success? ==>
              var entries := Member(data, "data");
              entries.Some? && var first := At(entries.value, 0);
              first.Some? && var on := Member(first.value, "on");
              on.Some? && Member(on.value, "on") == Some(r.value)
  {
    var entries :- Found(Member(data, "data"));
    var first :- Found(At(entries, 0));
    var on :- Found(Member(first, "on"));
    Found(Member(on, "on"))
  }

  /** The state is read from any payload whose `data` list starts with an
      object holding `on.on`, whatever other keys the payload, the entry or
      the `on` object carry (the bridge also sends `errors`, `id`, `type`, …);
      a payload without `data` has no state. */
  lemma OnStateOfPayload(payload: Dict<Json>, first: Dict<Json>, more: seq<Json>, on: Dict<Json>, v: Json)
    ensures Get(payload, "data") == Some(Arr([Obj(first)] + more))
            && Get(first, "on") == Some(Obj(on)) && Get(on, "on") == Some(v)
            ==> OnState(Obj(payload)) == Success(v)
    ensures "data" !in Keys(payload) ==> OnState(Obj(payload)) == Failure(DataError)
  {
    if Get(payload, "data") == Some(Arr([Obj(first)] + more)) {
      assert At(Arr([Obj(first)] + more), 0) == Some(Obj(first));
    }
  }

  /** `is_on()`: the state in the first endpoint's payload, in insertion
      order; Python's `None` (here `Null`) when there are no endpoints. The
      attribute is missing before the first `refresh_state`. */
  function IsOn(d: Device): (r: Result<Json, Error>)
    requires d.variant == Light
    ensures d.endpoints.None? ==> r == Failure(DataError)
    ensures d.endpoints == Some([]) ==> r == Success(Null)
    ensures d.endpoints.Some? && d.endpoints.value != [] ==> r == OnState(d.endpoints.value[0].1)
  {
    match d.endpoints
    case None => Failure(DataError)
    case Some(eps) => if eps == [] then Success(Null) else OnState(eps[0].1)
  }

  /** Python's `str(b)` for a boolean. */
  function BoolText(b: bool): string {
    if b then "True" else "False"
  }

  /** The body `__set_on_off` formats: `{"on":{"on":<str(on).lower()>}}`. */
  function OnOffBody(on: bool): (r: string)
    ensures r == "{\"on\":{\"on\":" + (if on then "true" else "false") + "}}"
  {
    LowerTrue();
    LowerFalse();
    "{\"on\":{\"on\":" + Lower(BoolText(on)) + "}}"
  }

  /** `str(True).lower()` */
  lemma LowerTrue()
    ensures Lower(BoolText(true)) == "true"
  {
    assert "True" == ['T'] + "rue";
    LowerCons('T', "rue");
    LowerIsCaseFold("rue");
  }

  /** `str(False).lower()` */
  lemma LowerFalse()
    ensures Lower(BoolText(false)) == "false"
  {
    assert "False" == ['F'] + "alse";
    LowerCons('F', "alse");
    LowerIsCaseFold("alse");
  }

  /** The body for `on=True` is the JSON the v2 light resource expects, and
      the one for `on=False` differs from it. */
  lemma OnOffBodies()
    ensures OnOffBody(true) == "{\"on\":{\"on\":true}}"
    ensures OnOffBody(false) == "{\"on\":{\"on\":false}}"
  {
    LowerTrue();
    LowerFalse();
  }

  /** `__set_on_off(on)`. The body is built and then unused: when the light
      is not on, `self.send()` is called without its `method` and `endpoint`
      arguments, which raises TypeError before any request is made. */
  function SetOnOff(d: Device, on: bool): (r: Result<(), Error>)
    requires d.variant == Light
    ensures r == Success(()) <==> IsOn(d).Success? && Truthy(IsOn(d).value)
    ensures r == Failure(SendMissingArguments) <==> IsOn(d).Success? && !Truthy(IsOn(d).value)
    ensures IsOn(d).Failure? ==> r == Failure(IsOn(d).error)
  {
    var _ := OnOffBody(on);
    var state :- IsOn(d);
    if !Truthy(state) then Failure(SendMissingArguments) else Success(())
  }

  /** `turn_on()`; it returns Python's `None`. */
  function TurnOn(d: Device): (r: Result<(), Error>)
    requires d.variant == Light
    ensures r.Success? <==> IsOn(d).Success? && Truthy(IsOn(d).value)
  {
    SetOnOff(d, true)
  }

  /** The requested state never matters: `on=True` and `on=False` behave alike. */
  lemma SetOnOffIgnoresRequest(d: Device)
    requires d.variant == Light
    ensures SetOnOff(d, true) == SetOnOff(d, false)
  {
  }

  /** On a light that is already on, `turn_on` succeeds without sending, and
      so does every repetition. On a light that is off it always fails. */
  lemma TurnOnOutcome(d: Device)
    requires d.variant == Light
    requires IsOn(d).Success?
    ensures Truthy(IsOn(d).value) ==> TurnOn(d) == Success(())
    ensures !Truthy(IsOn(d).value) ==> TurnOn(d) == Failure(SendMissingArguments)
  {
  }

  /** `__set_on_off(on)` as evidently intended: when the light is not on,
      the formatted body is sent as a PUT to the light's first endpoint
      through the transport. A light without endpoints has nothing to send to. */
  function IntendedSetOnOff(d: Device, on: bool, api: ApiRequest, net: Network): (r: Result<(), Error>)
    requires d.variant == Light
    ensures IsOn(d).Failure? ==> r == Failure(IsOn(d).error)
    ensures IsOn(d).Success? && Truthy(IsOn(d).value) ==> r == Success(())
    ensures IsOn(d).Success? && !Truthy(IsOn(d).value) && d.endpoints.value != [] ==>
              var sent := Send(api, "PUT", d.endpoints.value[0].0, Some(OnOffBody(on)), [], Null, net);
              (r.Success? <==> sent.Success?) && (sent.Failure? ==> r == Failure(sent.error))
    ensures IsOn(d).Success? && !Truthy(IsOn(d).value) && d.endpoints.value == [] ==> r == Success(())
  {
    var state :- IsOn(d);
    if Truthy(state) then Success(())
    else
      var eps := d.endpoints.value;
      if eps == [] then Success(())
      else
        var _ :- Send(api, "PUT", eps[0].0, Some(OnOffBody(on)), [], Null, net);
        Success(())
  }

  /** The corrected `turn_on` on a light that is off sends
      `{"on":{"on":true}}` to the version 2 path of its first endpoint and
      succeeds exactly when the bridge answers that request with a JSON 200. */
  lemma IntendedTurnOnSends(d: Device, api: ApiRequest, net: Network)
    requires d.variant == Light && IsSet(api.address) && api.apiVersion == Num(2)
    requires IsOn(d).Success? && !Truthy(IsOn(d).value)
    requires d.endpoints.Some? && d.endpoints.value != []
    ensures var req := HttpRequest("PUT", "https://" + api.address.value + "/clip/v2/" + d.endpoints.value[0].0,
                                   Some("{\"on\":{\"on\":true}}"), WithKey(api, []));
            IntendedSetOnOff(d, true, api, net).Success? <==> Complete(net(req)).Success?
  {
    OnOffBodies();
    var e := d.endpoints.value[0].0;
    var req := HttpRequest("PUT", "https://" + api.address.value + "/clip/v2/" + e, Some(OnOffBody(true)), WithKey(api, []));
    assert Prepare(api, "PUT", e, Some(OnOffBody(true)), [], Null) == Success(req);
  }

  /** The first endpoint of a type is the path of the first service of that type. */
  lemma {:induction false} FirstEndpoint(services: Dict<string>, t: Option<string>, version: Json, i: nat)
    requires IsVersionTwo(version)
    requires i < |services| && Matches(services, t, i)
    requires forall j :: 0 <= j < i ==> !Matches(services, t, j)
    ensures EndpointsFor(services, t, version).value != []
    ensures EndpointsFor(services, t, version).value[0] == ResourcePath(services[i].1, services[i].0)
  {
    if i > 0 {
      assert !Matches(services, t, 0);
      assert Matches(services[1..], t, i - 1);
      forall j | 0 <= j < i - 1
        ensures !Matches(services[1..], t, j)
      {
        assert !Matches(services, t, j + 1);
      }
      FirstEndpoint(services[1..], t, version, i - 1);
    }
  }

  /** After `refresh_state`, `is_on()` reads the payload fetched for the
      light's first `light` service; with no such service it yields `None`. */
  lemma IsOnAfterRefresh(d: Device, fetch: Fetch, i: nat)
    requires d.variant == Light && UniqueKeys(d.services)
    requires RefreshState(d, fetch).Success?
    requires i < |d.services| && d.services[i].1 == "light"
    requires forall j :: 0 <= j < i ==> d.services[j].1 != "light"
    ensures var path := ResourcePath("light", d.services[i].0);
            fetch(path).Success? && IsOn(RefreshState(d, fetch).value) == OnState(fetch(path).value)
  {
    var eps := GetEndpoints(d, None, Num(2)).value;
    assert eps == EndpointsFor(d.services, Some("light"), Num(2)).value;
    forall j | 0 <= j < i
      ensures !Matches(d.services, Some("light"), j)
    {
    }
    FirstEndpoint(d.services, Some("light"), Num(2), i);
    RefreshStateEndpoints(d, fetch);
    var endpoints := RefreshState(d, fetch).value.endpoints.value;
    assert Keys(endpoints) == eps;
    assert UniqueKeys(endpoints) by {
      EndpointsDistinct(d.services, Some("light"), Num(2));
      assert forall a :: 0 <= a < |endpoints| ==> endpoints[a].0 == eps[a];
    }
    GetUnique(endpoints, 0);
    assert endpoints[0].0 == eps[0];
  }

  /** A light with no `light` service has no endpoints after `refresh_state`,
      so `is_on()` returns `None`. */
  lemma IsOnWithoutLightService(d: Device, fetch: Fetch)
    requires d.variant == Light
    requires forall j :: 0 <= j < |d.services| ==> d.services[j].1 != "light"
    ensures RefreshState(d, fetch).Success?
    ensures IsOn(RefreshState(d, fetch).value) == Success(Null)
  {
    NoMatchNoEndpoints(d, None, Num(2));
    var r := RefreshState(d, fetch).value;
    assert Keys(r.endpoints.value) == [] by {
      forall p ensures p !in Keys(r.endpoints.value) { }
    }
  }
}

=== FILE: hueswitch.dfy ===
/** `HueSwitch`: a device whose own resource type is `button`. */
module HueSwitch {
  import opened Results
  import opened Dicts
  import opened JsonData
  import opened HueApi
  import opened HueDevice

  /** The `HueSwitch(id, id_v1, type, send)` constructor. */
  function NewSwitch(id: Option<string>, idV1: Option<string>, deviceType: Option<string>): (d: Device)
    ensures d.variant == Switch
    ensures d.FriendlyType() == "switch" && d.ResourceType() == Some("button")
    ensures d.id == id && d.idV1 == idV1 && d.deviceType == deviceType
    ensures d.metadata == [] && d.productData == [] && d.services == [] && d.endpoints.None?
  {
    NewDevice(Switch, id, idV1, deviceType)
  }

  /** A switch's default endpoints are exactly the paths of its `button`
      services, so `refresh_state` queries nothing else. */
  lemma SwitchEndpointsAreButtons(d: Device, rtype: Option<string>)
    requires d.variant == Switch && !IsSet(rtype)
    ensures GetEndpoints(d, rtype, Num(2)).Success?
    ensures forall p :: p in GetEndpoints(d, rtype, Num(2)).value <==>
              exists i :: 0 <= i < |d.services| && d.services[i].1 == "button" && p == ResourcePath("button", d.services[i].0)
  {
    var eps := GetEndpoints(d, rtype, Num(2)).value;
    forall p
      ensures p in eps <==> exists i :: 0 <= i < |d.services| && d.services[i].1 == "button" && p == ResourcePath("button", d.services[i].0)
    {
      assert p in eps <==> Yields(d.services, Some("button"), p);
    }
  }
}

=== FILE: json.dfy ===
/** Decoded JSON payloads, as `json.loads` returns them, and the Python
    lookups the client performs on them. */
module JsonData {
  import opened Results
  import opened Dicts

  /** A decoded JSON value; `Null` is Python's `None`. Numbers are integers. */
  datatype Json =
    | Null
    | Bool(b: bool)
    | Num(n: int)
    | Str(s: string)
    | Arr(items: seq<Json>)
    | Obj(fields: Dict<Json>)

  /** Python truthiness: `None`, `False`, `0`, `""`, `[]` and `{}` are false. */
  predicate Truthy(j: Json) {
    match j
    case Null => false
    case Bool(b) => b
    case Num(n) => n != 0
    case Str(s) => s != ""
    case Arr(xs) => xs != []
    case Obj(fs) => fs != []
  }

  /** `j[i]` for an integer index: succeeds on an array long enough.
      Indexing a string, which Python allows, reads as `None` too, because
      every use then subscripts or calls `.get` on the character, which
      raises. */
  function At(j: Json, i: nat): (r: Option<Json>)
    ensures r.Some? <==> j.Arr? && i < |j.items|
    ensures r.Some? ==> r.value == j.items[i]
  {
    if j.Arr? && i < |j.items| then Some(j.items[i]) else None
  }

  /** `j[k]` for a string key; `None` when Python would raise. */
  function Member(j: Json, k: string): (r: Option<Json>)
    ensures r.Some? <==> j.Obj? && k in Keys(j.fields)
    ensures r.Some? ==> Get(j.fields, k) == r
  {
    if j.Obj? then Get(j.fields, k) else None
  }

  /** `j.get(k)`: a missing key reads as `None`; `None` overall when `j`
      is not an object (Python raises AttributeError). */
  function Lookup(j: Json, k: string): (r: Option<Json>)
    ensures r.Some? <==> j.Obj?
    ensures j.Obj? && k !in Keys(j.fields) ==> r == Some(Null)
    ensures Member(j, k).Some? ==> r == Member(j, k)
  {
    if j.Obj? then Some(Get(j.fields, k).GetOr(Null)) else None
  }
}

=== FILE: pairing.dfy ===
/** `Bridge.get_credentials`: register the application with the bridge by
    polling until the link button has been pressed. */
module Pairing {
  import opened Results
  import opened Dicts
  import opened JsonData
  import opened Errors
  import opened HueApi

  /** The bridge's error type for "link button not pressed". */
  const LinkButtonNotPressed := 101

  /** The registration body for the application name (`<app_name>#<app_instance>`). */
  function PairingBody(appName: string): string {
    "{\"devicetype\":\"" + appName + "\", \"generateclientkey\":true}"
  }

  /** Distinct application names register with distinct bodies. */
  lemma PairingBodyInjective(a: string, b: string)
    ensures PairingBody(a) == PairingBody(b) ==> a == b
  {
    var prefix := "{\"devicetype\":\"";
    if PairingBody(a) == PairingBody(b) {
      assert |a| == |b|;
      assert a == PairingBody(a)[|prefix|..|prefix| + |a|];
      assert b == PairingBody(b)[|prefix|..|prefix| + |b|];
    }
  }

  /** The application name the constructor registers under. */
  function AppName(appName: string, appInstance: string): string {
    appName + "#" + appInstance
  }

  /** The text before the first `#`, or all of it when there is none. */
  function BeforeHash(s: string): (r: string)
    ensures r <= s
  {
    if s == [] || s[0] == '#' then [] else [s[0]] + BeforeHash(s[1..])
  }

  /** The name part of a registered name is recovered up to its `#`. */
  lemma {:induction false} BeforeHashOfAppName(appName: string, appInstance: string)
    requires '#' !in appName
    ensures BeforeHash(AppName(appName, appInstance)) == appName
  {
    if appName != [] {
      assert AppName(appName, appInstance)[1..] == AppName(appName[1..], appInstance);
      BeforeHashOfAppName(appName[1..], appInstance);
    }
  }

  /** When the application name holds no `#`, the registered name gives back
      both the application name and the instance. */
  lemma AppNameInjective(n1: string, i1: string, n2: string, i2: string)
    requires '#' !in n1 && '#' !in n2
    ensures AppName(n1, i1) == AppName(n2, i2) ==> n1 == n2 && i1 == i2
  {
    var a1, a2 := AppName(n1, i1), AppName(n2, i2);
    if a1 == a2 {
      BeforeHashOfAppName(n1, i1);
      BeforeHashOfAppName(n2, i2);
      assert i1 == a1[|n1| + 1..] && i2 == a2[|n2| + 1..];
    }
  }

  /** What one registration answer tells the loop. */
  datatype Step = Retry | Granted(username: Json, clientkey: Json)

  /** The reading of one answer's `data`: its first element's `error`, when
      truthy, is either "press the button" (type 101, poll again) or a
      rejection carrying its type and description; otherwise the `success`
      member holds the credentials. Missing keys raise. */
  function Interpret(data: Json): (r: Result<Step, Error>)
    ensures r == Success(Retry) ==>
              var first := At(data, 0);
              first.Some? && var error := Lookup(first.value, "error");
              error.Some? && Truthy(error.value) && Member(error.value, "type") == Some(Num(LinkButtonNotPressed))
    ensures r.Success? && r.value.Granted? ==>
              var first := At(data, 0);
              first.Some? && var error := Lookup(first.value, "error");
              error.Some? && !Truthy(error.value) && var success := Member(first.value, "success");
              success.Some? && Member(success.value, "username") == Some(r.value.username)
              && Member(success.value, "clientkey") == Some(r.value.clientkey)
    ensures r.Failure? && r.error.PairingRejected? ==>
              var first := At(data, 0);
              first.Some? && var error := Lookup(first.value, "error");
              error.Some? && Truthy(error.value) && r.error.errorType != Num(LinkButtonNotPressed)
              && Member(error.value, "type") == Some(r.error.errorType)
              && Member(error.value, "description") == Some(r.error.description)
    ensures r.Failure? ==> r.error == DataError || r.error.PairingRejected?
  {
    var first :- Found(At(data, 0));
    var error :- Found(Lookup(first, "error"));
    if Truthy(error) then
      var errorType :- Found(Member(error, "type"));
      if errorType == Num(LinkButtonNotPressed) then Success(Retry)
      else
        var description :- Found(Member(error, "description"));
        Failure(PairingRejected(errorType, description))
    else
      var success :- Found(Member(first, "success"));
      var username :- Found(Member(success, "username"));
      var clientkey :- Found(Member(success, "clientkey"));
      Success(Granted(username, clientkey))
  }

  /** An answer whose first element carries an `error` object of type 101
      asks to poll again, whatever else the answer and the error hold (the
      bridge also sends `address` and `description`). */
  lemma InterpretButtonNotPressed(first: Dict<Json>, error: Dict<Json>, more: seq<Json>)
    requires Get(first, "error") == Some(Obj(error))
    requires Get(error, "type") == Some(Num(LinkButtonNotPressed))
    ensures Interpret(Arr([Obj(first)] + more)) == Success(Retry)
  {
    assert At(Arr([Obj(first)] + more), 0) == Some(Obj(first));
    assert Lookup(Obj(first), "error") == Some(Obj(error));
    assert "type" in Keys(error);
    assert Truthy(Obj(error));
    assert Member(Obj(error), "type") == Some(Num(LinkButtonNotPressed));
  }

  /** An `error` object of any other type is a rejection carrying that type
      and the error's description; without a description the lookup raises. */
  lemma InterpretRejection(first: Dict<Json>, error: Dict<Json>, more: seq<Json>, errorType: Json, description: Json)
    requires Get(first, "error") == Some(Obj(error))
    requires Get(error, "type") == Some(errorType) && errorType != Num(LinkButtonNotPressed)
    ensures Get(error, "description") == Some(description) ==>
              Interpret(Arr([Obj(first)] + more)) == Failure(PairingRejected(errorType, description))
    ensures "description" !in Keys(error) ==> Interpret(Arr([Obj(first)] + more)) == Failure(DataError)
  {
    assert At(Arr([Obj(first)] + more), 0) == Some(Obj(first));
    assert Lookup(Obj(first), "error") == Some(Obj(error));
    assert "type" in Keys(error);
    assert Truthy(Obj(error));
    assert Member(Obj(error), "type") == Some(errorType);
  }

  /** An answer whose first element has no truthy `error` yields the
      username and client key of its `success` object, whatever else it holds. */
  lemma InterpretSuccess(first: Dict<Json>, success: Dict<Json>, more: seq<Json>, username: Json, clientkey: Json)
    requires Get(first, "error").None? || !Truthy(Get(first, "error").value)
    requires Get(first, "success") == Some(Obj(success))
    requires Get(success, "username") == Some(username) && Get(success, "clientkey") == Some(clientkey)
    ensures Interpret(Arr([Obj(first)] + more)) == Success(Granted(username, clientkey))
  {
    assert At(Arr([Obj(first)] + more), 0) == Some(Obj(first));
  }

  /** How the polling ends. `StillWaiting` means the answers ran out while
      the bridge kept asking for the button. */
  datatype Pairing = Paired(username: Json, clientkey: Json) | Failed(error: Error) | StillWaiting

  /** The answer asks to poll again. */
  predicate IsRetry(answer: Result<ApiResponse, Error>) {
    answer.Success? && Interpret(answer.value.data) == Success(Retry)
  }

  /** The `i`-th answer asks to poll again. */
  predicate RetryAt(answers: seq<Result<ApiResponse, Error>>, i: int)
    requires 0 <= i < |answers|
  {
    IsRetry(answers[i])
  }

  /** The position of the first element that fails `p`, or the length when
      all satisfy it. */
  function FirstNot<T>(xs: seq<T>, p: T -> bool): (k: nat)
    ensures k <= |xs|
    ensures forall j :: 0 <= j < k ==> p(xs[j])
    ensures k < |xs| ==> !p(xs[k])
    decreases |xs|
  {
    if xs == [] || !p(xs[0]) then 0
    else
      var k := 1 + FirstNot(xs[1..], p);
      assert forall j :: 1 <= j < k ==> xs[j] == xs[1..][j - 1];
      k
  }

  /** The position of the first answer that is not a retry, or the number
      of answers when all are retries. */
  function FirstDecisive(answers: seq<Result<ApiResponse, Error>>): (k: nat)
    ensures k <= |answers|
    ensures forall j :: 0 <= j < k ==> RetryAt(answers, j)
    ensures k < |answers| ==> !RetryAt(answers, k)
  {
    FirstNot(answers, IsRetry)
  }

  /** How an answer that is not a retry ends the loop. */
  function Decide(answer: Result<ApiResponse, Error>): (r: Pairing)
    ensures answer.Failure? ==> r == Failed(answer.error)
    ensures r == StillWaiting <==> IsRetry(answer)
    ensures r.Paired? ==> answer.Success? && Interpret(answer.value.data) == Success(Granted(r.username, r.clientkey))
    ensures r.Failed? && answer.Success? ==> Interpret(answer.value.data) == Failure(r.error)
  {
    match answer
    case Failure(e) => Failed(e)
    case Success(response) =>
      match Interpret(response.data)
      case Failure(e) => Failed(e)
      case Success(Granted(username, clientkey)) => Paired(username, clientkey)
      case Success(Retry) => StillWaiting
  }

  /** The first answer that is not a retry decides; an error of the request
      itself ends the loop too. */
  function PollOutcome(answers: seq<Result<ApiResponse, Error>>): (r: Pairing)
    ensures r == StillWaiting <==> forall i :: 0 <= i < |answers| ==> RetryAt(answers, i)
  {
    var k := FirstDecisive(answers);
    if k == |answers| then StillWaiting else Decide(answers[k])
  }

  /** The answer at `i` decides when every earlier answer was a retry. */
  lemma DecidedAt(answers: seq<Result<ApiResponse, Error>>, i: nat)
    requires i < |answers| && !RetryAt(answers, i)
    requires forall j :: 0 <= j < i ==> RetryAt(answers, j)
    ensures PollOutcome(answers) == Decide(answers[i])
  {
    assert FirstDecisive(answers) == i;
  }

  /** Credentials come from the first answer that is not a retry, and so
      does a failure: the request's own error or the bridge's rejection. */
  lemma PollOutcomeWitness(answers: seq<Result<ApiResponse, Error>>)
    ensures var r := PollOutcome(answers);
            r.Paired? ==> exists i :: 0 <= i < |answers| && answers[i].Success?
                                      && Interpret(answers[i].value.data) == Success(Granted(r.username, r.clientkey))
                                      && forall j :: 0 <= j < i ==> RetryAt(answers, j)
    ensures var r := PollOutcome(answers);
            r.Failed? ==> exists i :: 0 <= i < |answers|
                                      && (answers[i] == Failure(r.error)
                                          || (answers[i].Success? && Interpret(answers[i].value.data) == Failure(r.error)))
                                      && forall j :: 0 <= j < i ==> RetryAt(answers, j)
  {
    var k := FirstDecisive(answers);
    if k < |answers| {
      assert PollOutcome(answers) == Decide(answers[k]);
    }
  }

  /** The `while error_type == 101` loop over the answers of successive
      registration requests. */
  method PollCredentials(answers: seq<Result<ApiResponse, Error>>) returns (r: Pairing)
    ensures r == PollOutcome(answers)
  {
    var i := 0;
    while i < |answers|
      invariant 0 <= i <= |answers|
      invariant forall j :: 0 <= j < i ==> RetryAt(answers, j)
    {
      match answers[i]
      case Failure(e) =>
        DecidedAt(answers, i);
        return Failed(e);
      case Success(response) =>
        var step := Interpret(response.data);
        match step
        case Failure(e) =>
          DecidedAt(answers, i);
          return Failed(e);
        case Success(Granted(username, clientkey)) =>
          DecidedAt(answers, i);
          return Paired(username, clientkey);
        case Success(Retry) =>
      i := i + 1;
    }
    return StillWaiting;
  }

  /** The registration request of attempt `i`, sent with the given version
      over the network as it is at that attempt. */
  function RegistrationAnswers(api: ApiRequest, appName: string, version: Json, nets: seq<Network>)
    : (answers: seq<Result<ApiResponse, Error>>)
    ensures |answers| == |nets|
  {
    seq(|nets|, i requires 0 <= i < |nets| =>
      Send(api, "POST", "", Some(PairingBody(appName)), [], version, nets[i]))
  }

  /** `get_credentials(app_name)` as written: the version is passed as the string `'1'`. */
  function GetCredentials(api: ApiRequest, appName: string, nets: seq<Network>): (r: Pairing)
    ensures nets == [] ==> r == StillWaiting
    ensures nets != [] ==> r.Failed?
  {
    var answers := RegistrationAnswers(api, appName, Str("1"), nets);
    assert nets != [] ==> answers[0] == Send(api, "POST", "", Some(PairingBody(appName)), [], Str("1"), nets[0]);
    PollOutcome(answers)
  }

  /** `get_credentials(app_name)` as evidently intended: version 1, the integer. */
  function IntendedGetCredentials(api: ApiRequest, appName: string, nets: seq<Network>): (r: Pairing)
    ensures nets == [] ==> r == StillWaiting
    ensures !IsSet(api.address) && nets != [] ==> r == Failed(AddressNotSet)
  {
    var answers := RegistrationAnswers(api, appName, Num(1), nets);
    assert !IsSet(api.address) && nets != [] ==>
      answers[0] == Send(api, "POST", "", Some(PairingBody(appName)), [], Num(1), nets[0]);
    PollOutcome(answers)
  }

  /** As written, pairing can never succeed: the version `'1'` is rejected
      before any request, so the first attempt already fails, whatever the
      bridge would answer. */
  lemma GetCredentialsNeverPairs(api: ApiRequest, appName: string, nets: seq<Network>)
    requires nets != []
    ensures GetCredentials(api, appName, nets)
         == Failed(if IsSet(api.address) then UnknownApiVersion(Str("1")) else AddressNotSet)
  {
    var answers := RegistrationAnswers(api, appName, Str("1"), nets);
    assert answers[0] == Send(api, "POST", "", Some(PairingBody(appName)), [], Str("1"), nets[0]);
  }

  /** The registration request of the corrected call: a POST of the pairing
      body to the version 1 root of the bridge. */
  function RegistrationRequest(api: ApiRequest, appName: string): HttpRequest
    requires IsSet(api.address)
  {
    HttpRequest("POST", "https://" + api.address.value + "/api/", Some(PairingBody(appName)), WithKey(api, []))
  }

  /** With version 1 every attempt reaches the bridge with the registration
      request, so each answer is the bridge's reply to it. */
  lemma IntendedAnswer(api: ApiRequest, appName: string, nets: seq<Network>, i: nat)
    requires IsSet(api.address) && i < |nets|
    ensures RegistrationAnswers(api, appName, Num(1), nets)[i] == Complete(nets[i](RegistrationRequest(api, appName)))
  {
    var root := "https://" + api.address.value + "/api/";
    assert root + "" == root;
    assert EffectiveVersion(api, Num(1)) == Num(1);
    assert Prepare(api, "POST", "", Some(PairingBody(appName)), [], Num(1)) == Success(RegistrationRequest(api, appName));
  }

  /** Once the bridge grants credentials after asking for the button, the
      corrected call returns them. */
  lemma IntendedPairingSucceeds(api: ApiRequest, appName: string, nets: seq<Network>, k: nat,
                                text: string, data: Json, username: Json, clientkey: Json)
    requires IsSet(api.address)
    requires k < |nets|
    requires forall j :: 0 <= j < k ==> IsRetry(Complete(nets[j](RegistrationRequest(api, appName))))
    requires nets[k](RegistrationRequest(api, appName)) == Reply(200, text, Some(data))
    requires Interpret(data) == Success(Granted(username, clientkey))
    ensures IntendedGetCredentials(api, appName, nets) == Paired(username, clientkey)
  {
    var answers := RegistrationAnswers(api, appName, Num(1), nets);
    forall j | 0 <= j < k
      ensures RetryAt(answers, j)
    {
      IntendedAnswer(api, appName, nets, j);
    }
    IntendedAnswer(api, appName, nets, k);
    DecidedAt(answers, k);
  }
}

=== FILE: results.dfy ===
/** Failure-compatible wrappers used throughout the model: Python's `None`
    and raised exceptions become values of these types. */
module Results {

  /** A value that may be absent, as a Python attribute or key that may be `None`. */
  datatype Option<+T> = None | Some(value: T) {

    predicate IsFailure() {
      None?
    }

    function PropagateFailure<U>(): Option<U>
      requires None?
    {
      None
    }

    function Extract(): T
      requires Some?
    {
      value
    }

    /** The value, or `default` when absent (Python's `dict.get(k, default)`). */
    function GetOr(default: T): T {
      match this
      case Some(v) => v
      case None => default
    }
  }

  /** Either a normal return value or the exception an operation raised. */
  datatype Result<+T, +E> = Success(value: T) | Failure(error: E) {

    predicate IsFailure() {
      Failure?
    }

    function PropagateFailure<U>(): Result<U, E>
      requires Failure?
    {
      Failure(error)
    }

    function Extract(): T
      requires Success?
    {
      value
    }
  }
}

=== FILE: text.dfy ===
/** The two string operations the client relies on: `str.lower()` and the
    substring test `needle in haystack`. */
module Text {

  /** `c.lower()` for a single character; only ASCII letters have a case here. */
  function LowerChar(c: char): char {
    if 'A' <= c <= 'Z' then (c as int + 32) as char else c
  }

  predicate IsUpper(c: char) {
    'A' <= c <= 'Z'
  }

  /** `s.lower()`. */
  function Lower(s: string): (r: string)
    ensures |r| == |s|
    ensures forall i :: 0 <= i < |s| ==> r[i] == LowerChar(s[i])
  {
    if s == [] then [] else [LowerChar(s[0])] + Lower(s[1..])
  }

  /** Lower-casing works character by character from the front. */
  lemma LowerCons(c: char, s: string)
    ensures Lower([c] + s) == [LowerChar(c)] + Lower(s)
  {
    assert ([c] + s)[1..] == s;
  }

  /** Lower-casing leaves no upper-case letter, keeps every other character,
      and lower-casing twice is lower-casing once. */
  lemma LowerIsCaseFold(s: string)
    ensures forall i :: 0 <= i < |s| ==> !IsUpper(Lower(s)[i])
    ensures forall i :: 0 <= i < |s| && !IsUpper(s[i]) ==> Lower(s)[i] == s[i]
    ensures Lower(Lower(s)) == Lower(s)
  {
  }

  /** `needle` starts at position `i` of `haystack`. */
  predicate OccursAt(haystack: string, needle: string, i: int) {
    0 <= i && i + |needle| <= |haystack| && haystack[i..i + |needle|] == needle
  }

  /** `needle in haystack` for Python strings. */
  function Contains(haystack: string, needle: string): (r: bool)
    ensures r <==> exists i :: OccursAt(haystack, needle, i)
    decreases |haystack|
  {
    if |needle| > |haystack| then
      assert forall i :: !OccursAt(haystack, needle, i);
      false
    else if haystack[..|needle|] == needle then
      assert OccursAt(haystack, needle, 0);
      true
    else
      var r := Contains(haystack[1..], needle);
      assert r ==> exists i :: OccursAt(haystack, needle, i) by {
        if r {
          var i :| OccursAt(haystack[1..], needle, i);
          assert haystack[1..][i..i + |needle|] == haystack[i + 1..i + 1 + |needle|];
          assert OccursAt(haystack, needle, i + 1);
        }
      }
      assert (exists i :: OccursAt(haystack, needle, i)) ==> r by {
        if exists i :: OccursAt(haystack, needle, i) {
          var i :| OccursAt(haystack, needle, i);
          assert i != 0;
          assert haystack[1..][i - 1..i - 1 + |needle|] == haystack[i..i + |needle|];
          assert OccursAt(haystack[1..], needle, i - 1);
        }
      }
      r
  }
}
